=== FILE: README.md ===
# Sports-lottery portfolio auditor: the sequential core, in Dafny

This project models the non-visual core of a small React app. The app fetches
China Sports Lottery fixtures through a Gemini model. It lets the user collect
picks into a portfolio and sends the portfolio to a second Gemini model for a
risk audit. The model covers five pieces:

- **Portfolio reducer**: `addToPortfolio` and `removeFromPortfolio` in App.tsx.
  A pick replaces any earlier pick on the same `(match_id, market_type)`. Removing is by position. Both drop the cached audit result.
- **Catalog acquisition**: `performFetch` and `fetchLotteryMatches` in services/geminiService.ts, and `initData` in App.tsx.
  The primary request races a timer. A `TIMEOUT` rejection triggers exactly one fallback request. Any other error gives an empty list. The app installs a non-empty list, and otherwise installs the static `MOCK_MATCHES`.
- **Response cleaning**: `replace(/```json/g,'').replace(/```/g,'').trim()` applied to every model answer.
- **Audit request and call**: the `matchContext` join (`map` + `find` + `filter(Boolean)`) and `auditPortfolio`. The handler `handleAudit` is modelled too.
- **Lookups and fixtures**: the sport filter, the correct-score `findOdds`, the date padding of `getMatchDate`, `MOCK_MATCHES`, and the closed enumerations of types.ts.

Modules follow the source files:

| file | module | source |
|---|---|---|
| wrappers.dfy | `Wrappers` | `Option`, thrown errors and settled promises |
| seqs.dfy | `Seqs` | the subsequence relation and how it composes |
| types.dfy | `Types` | types.ts |
| constants.dfy | `Constants` | constants.ts |
| response_text.dfy | `ResponseText` | the cleaning in services/geminiService.ts |
| portfolio.dfy | `Portfolio` | the list transformations in App.tsx |
| gemini_service.dfy | `GeminiService` | services/geminiService.ts |
| app.dfy | `App` | the component state and handlers of App.tsx |
| scenarios.dfy | `Scenarios` | concrete runs on the static catalog |

Foreign calls are parameters:

- The model call `generateContent` is an `Attempt`: a response text or a thrown error.
- `new GoogleGenAI({ apiKey })` is an optional error: the one its construction throws, if any.
- `JSON.parse` is a function `string -> Parse<T>`.
- The race is a flag saying whether the 15-second timer fired first.
- The clock is a `CalendarDay`.

TypeScript numbers are exact `real`s.

## Model

| member | source | states |
|---|---|---|
| Types.ParseSport | types.ts:2 | a sport name is accepted iff it is FOOTBALL or BASKETBALL, and reads back to its own name |
| Types.ParseMarket | types.ts:45 | exactly the five market names App.tsx uses (WDL, WDHL, CS, TG, TOTALS) are accepted, each reading back to its own name |
| Types.ParseStatus | types.ts:66 | the summary status is exactly one of PASS, WARNING, CRITICAL |
| Types.ParseRiskLevel | types.ts:58 | the risk level is exactly one of LOW, MEDIUM, HIGH |
| Types.ParseOptimizationType | types.ts:51 | the optimization type is exactly one of SAFETY_NET, PIVOT |
| ResponseText.RemoveAll | services/geminiService.ts:136 | global removal of a literal pattern never lengthens the text; what survives is a subsequence of the input, and every character not in the pattern survives as often as it occurs |
| ResponseText.RemoveAllAbsent | services/geminiService.ts:136 | a text in which the pattern does not occur is returned unchanged |
| ResponseText.RemoveFenceLeadingTicks | services/geminiService.ts:136 | after removing fences, a leading run of n backticks keeps n mod 3 of them |
| ResponseText.RemoveFenceLeavesNoFence | services/geminiService.ts:136 | after the second replace no "```" is left anywhere, even where removal joins backticks |
| ResponseText.TrimStart | services/geminiService.ts:136 | the result is a suffix of the input, everything dropped is white space, and it does not start with white space |
| ResponseText.TrimEnd | services/geminiService.ts:136 | the result is a prefix of the input, everything dropped is white space, and it does not end with white space |
| ResponseText.Trim | services/geminiService.ts:136 | `trim()` leaves no white space at either end |
| ResponseText.TrimIsSlice | services/geminiService.ts:136 | trim returns the slice between a white-space prefix and a white-space suffix |
| ResponseText.TrimKeepsContent | services/geminiService.ts:136 | `trim()` returns a subsequence of its input that keeps every character other than white space, as often as it occurs |
| ResponseText.Clean | services/geminiService.ts:199 | the cleaned text contains no "```" and has no leading or trailing white space; it is drawn in order from the raw answer, and every character that is neither white space nor part of "```json" is kept as often as it occurs |
| ResponseText.CleanKeepsCleanText | services/geminiService.ts:136 | a trimmed, fence-free text is returned unchanged |
| ResponseText.CleanIdempotent | services/geminiService.ts:136 | cleaning twice equals cleaning once |
| ResponseText.RemoveAllKeepsTicklessPrefix | services/geminiService.ts:136 | a pattern starting with a backtick never matches inside a backtick-free prefix, so that prefix survives the global replace whole |
| ResponseText.CleanTickless | services/geminiService.ts:136 | an answer with no backtick is only trimmed |
| ResponseText.CleanFenced | services/geminiService.ts:136 | a backtick-free body wrapped in "```json" ... "```" comes back whole, only trimmed, so the JSON body survives |
| Constants.DecimalString | constants.ts:7-8 | `String(n)` is a non-empty string of digits with no leading zero; one digit iff n < 10, two iff 10 <= n < 100 |
| Constants.DecimalStringRoundTrip | constants.ts:7-8 | reading `String(n)` back as decimal digits gives n |
| Constants.PadStart2 | constants.ts:7-8 | `padStart(2, '0')` keeps strings of length 2 or more and left-fills shorter ones with '0' to length 2, keeping the original as suffix |
| Constants.PadTwoDigits | constants.ts:7-8 | every value below 100 (all months and days) pads to exactly two digits that read back as the value |
| Constants.GetMatchDate | constants.ts:4-10 | the start time ends in a space followed by the given time of day, after at least two characters each for month and day |
| Constants.MatchDateShape | constants.ts:4-10 | for months 1..12 and days 1..31 the start time reads "MM-DD time" with MM and DD giving month and day |
| Constants.MockMatches | constants.ts:12-70 | the static catalog has two matches with distinct ids, the first FOOTBALL, the second BASKETBALL |
| Constants.FootballLadderShape | constants.ts:28-39 | the football ladder has ten entries with pairwise distinct labels and positive odds |
| Constants.MockMatchesShape | constants.ts:12-70 | the static catalog has two entries f_1001 (FOOTBALL) and b_2001 (BASKETBALL); the football ladder has pairwise distinct labels and positive odds; the basketball match has no correct-score market |
| Portfolio.CountKey | App.tsx:56-57 | the number of entries with a key is zero iff no entry carries it |
| Portfolio.Without | App.tsx:57 | the filter keeps exactly the entries with another key, as a subsequence, dropping as many entries as carry the key |
| Portfolio.AddSelection | App.tsx:55-62 | after an add the list holds the new entry and exactly the old entries under other keys, and the new key occurs exactly once |
| Portfolio.RemoveAt | App.tsx:67 | removal by position shortens the list by one iff the index is in range and never introduces an entry |
| Portfolio.AddSelectionLast | App.tsx:57-61 | after an add exactly one entry has key (match id, market): the last one, holding the new pick |
| Portfolio.AddSelectionKeepsUnique | App.tsx:56-61 | adding keeps (match_id, market_type) keys unique |
| Portfolio.AddSelectionFreshKey | App.tsx:57-61 | adding under a key the list does not hold just appends |
| Portfolio.AddSelectionKeepsOthers | App.tsx:57 | all entries with other keys survive unchanged in their relative order, and nothing else survives before the new entry |
| Portfolio.AddSelectionLength | App.tsx:55-61 | on a key-unique list an add grows the list by one iff the key was absent, else keeps its length |
| Portfolio.AddSelectionOverwrites | App.tsx:55-61 | a second add on the same match and market replaces the first (last pick wins) |
| Portfolio.AddSelectionIdempotent | App.tsx:55-61 | adding the same pick twice equals adding it once: add is not a toggle |
| Portfolio.UniqueCountAtMostOne | App.tsx:56-57 | in a key-unique list each key occurs at most once |
| Portfolio.RemoveAtSpec | App.tsx:67 | an index inside the list removes exactly that entry keeping the others in order; any other index changes nothing |
| Portfolio.RemoveAtKeepsUnique | App.tsx:67 | removing keeps keys unique |
| GeminiService.PerformFetch | services/geminiService.ts:36-139 | the status is reported first (an uncallable callback throws before the request); an array answer is returned as parsed; an empty text or a non-array value gives []; the model call's error and the parser's SyntaxError are propagated; a non-empty result is always the parsed array of the cleaned text |
| GeminiService.FetchLotteryMatches | services/geminiService.ts:8-156 | a client construction error rejects before any request; otherwise a primary result that settles first is returned with no fallback and only the primary status reported, a TIMEOUT leads to exactly one fallback whose outcome is propagated after both statuses, any other error gives [] with no fallback and only the primary status reported, and only a fallback failure escapes |
| GeminiService.FetchSources | services/geminiService.ts:135-156 | a non-empty list returned is the array one of the two providers answered with |
| GeminiService.FetchWithoutPrimaryCatalog | services/geminiService.ts:140-155 | a timely primary answer holding no catalog (empty, not an array, or a non-TIMEOUT failure) ends with [] after one fetch, with only the primary status reported |
| GeminiService.FirstIndexOf | services/geminiService.ts:166 | the position found is the first with the id; none iff no entry has it |
| GeminiService.FindMatch | services/geminiService.ts:166 | `find` returns the first catalog match with the id, or nothing iff none has it |
| GeminiService.Resolvable | services/geminiService.ts:165-174 | the selections whose match is in the catalog, as a subsequence of the portfolio keeping each such selection as many times as it occurs |
| GeminiService.MatchContextJoin | services/geminiService.ts:164-174 | the context has one entry per resolvable selection, and every entry names a match in the catalog |
| GeminiService.MatchContextJoinSpec | services/geminiService.ts:165-174 | one context entry per resolvable selection, in portfolio order, with match id, pick and market from the selection and name "home vs away" and details from the first catalog match with that id |
| GeminiService.MatchContextJoinComplete | services/geminiService.ts:165-174 | when every selection's match is in the catalog, no selection is dropped |
| GeminiService.AuditPortfolio | services/geminiService.ts:159-205 | a client construction error rejects before the oracle is asked; otherwise success iff the oracle answered non-empty text that parses; an empty answer throws "Empty response"; oracle and parser errors are re-thrown; no partial result |
| App.InitialState | App.tsx:15-23 | the app starts with an empty (hence key-unique) portfolio, no audit result and no catalog |
| App.FilterBySport | App.tsx:50-52 | the filter is the subsequence of matches whose sport is the given one |
| App.FilteredMatches | App.tsx:50-52 | `filteredMatches` holds exactly the catalog entries of the active sport, in catalog order |
| App.FilterBySportPartition | App.tsx:50-52 | football and basketball filters together account for every catalog entry |
| App.InitData | App.tsx:27-44 | a non-empty fetched list is installed; an empty list or an error installs MOCK_MATCHES; the last reported status is shown; nothing but the catalog, the fetching flag and the status line changes |
| App.Refresh | App.tsx:27-44 | with a status callback and a working client, a timely primary catalog or a post-timeout fallback catalog is installed with its status; a timely primary answer holding no catalog installs MOCK_MATCHES under the primary status, with no fallback; without a client MOCK_MATCHES is installed and no status is shown; the list is never left empty; nothing but the catalog, the fetching flag and the status line changes |
| App.RefreshSources | App.tsx:31-40 | a refresh installs one of the providers' catalogs or else the static catalog, nothing else |
| App.RefreshAsWritten | App.tsx:30 | as written, the static catalog is installed whatever the providers answer; nothing but the catalog and the fetching flag changes, so no status is shown |
| App.AddToPortfolio | App.tsx:54-64 | the new pick is last, preceded by exactly the old entries under other keys in order, no other entry has its key, uniqueness is kept, the audit result is cleared, and nothing else in the state changes |
| App.RemoveFromPortfolio | App.tsx:66-69 | exactly the indexed entry is removed (out of range: none), uniqueness is kept, the audit result is cleared, and nothing else in the state changes |
| App.HandleAudit | App.tsx:71-83 | an empty portfolio changes nothing; otherwise a successful audit is stored, a failed one keeps the previous result, and auditing ends; nothing else in the state changes |
| App.FirstLabelIndex | App.tsx:93 | the position found is the first ladder entry with the label; none iff no entry has it |
| App.FindOdds | App.tsx:93 | `findOdds` gives the odds of the first correct-score entry with the label, or none iff no entry (or no ladder) has it |
| Scenarios.MockFilterBySport | App.tsx:50-52 | filtering the static catalog by either sport yields its single match of that sport |
| Scenarios.MockFindOdds | App.tsx:85-93 | on b_2001 every lookup finds nothing; on f_1001 "1:0" costs 7.5 and "3:0" is absent |
| Scenarios.PortfolioSession | App.tsx:54-69 | a concrete session: re-picking WDL replaces the earlier WDL pick and moves it last, the CS pick on the same match stays, removal by index behaves as stated |
| Scenarios.AuditContextDropsStale | services/geminiService.ts:165-174 | a selection whose match is missing is dropped from the audit context; kept entries use " vs " names |
| Scenarios.CleanFencedAnswer | services/geminiService.ts:136 | a fenced answer is cleaned to its JSON body |
| Scenarios.RefreshAsWrittenIgnoresLiveData | App.tsx:30 | a timely live catalog is discarded as written but installed with the callback passed |

## Left out

- Rendering, styling, icons, tab and expansion state of App.tsx: presentation only.
- The prompts, `SYSTEM_INSTRUCTION`, the Google Search tool and the model choice: foreign network/LLM calls, modelled as uninterpreted outcomes.
- `setTimeout` and the 15-second budget: `Promise.race` is modelled only through a "timer fired first" flag; cancellation of the losing request is not modelled (the source does not cancel it either).
- `JSON.parse` and `Array.isArray`: a parameter returning an array, another value, or a SyntaxError. A parsed catalog's elements are taken as `Match` records because the source casts them without checking.
- GeminiService.AuditPortfolio: the `as AuditResponse` cast is modelled as a parse into the typed record; a JSON value of another shape, which the source would pass on unchecked, cannot be represented.
- `Date`, `toLocaleTimeString`, `lastSync`, `alert`, `console`: clock, locale and output. `getMatchDate` takes the already-offset calendar day; date arithmetic is not modelled.
- `useEffect` re-running `initData` when the sport or data source changes: the switch handlers only set state, and the refresh itself is modelled.
- App.InitData: each refresh is one atomic step from the settled fetch. Two overlapping `initData` calls started by App.tsx:46-48 can interleave, so the one that settles last wins even if it started first. The model has no interleaving, so it cannot express this.
- App.HandleAudit: the audit is one atomic step. An add or remove while an audit is pending clears the result (App.tsx:63, 68), and App.tsx:76 then stores the audit of the earlier portfolio. The model cannot express this interleaving.
- The market names WDHL and TG are used by App.tsx but missing from the union of types.ts:45; the model's market type has all five.
- `DataSource` is imported from types.ts, which does not declare it; the model declares it in `App`.

What the app does, and does not do:

- Adding overwrites by `(match_id, market_type)`. It is not a toggle, the pick is not part of the key, and no odds are checked or stored.
- The app has no combination counting.
- The audit context drops selections whose match is missing from the catalog.
- The audit answer is cast, not validated.
- The portfolio is not cleared when the sport or the data source changes.

## Findings

| source | as written | input that shows it | evidently intended | confidence | as-written member | corrected member |
|---|---|---|---|---|---|---|
| App.tsx:30 | `fetchLotteryMatches(dataSource, (status) => setFetchStatus(status))` passes the data-source string where services/geminiService.ts:8 expects the status callback. `onStatusUpdate?.(status)` then throws "not a function" before any request. The race rejects with a non-TIMEOUT error and the service returns `[]` | any provider answer, e.g. a timely primary text parsing to one live match | `fetchLotteryMatches((status) => setFetchStatus(status))`: live data installed, progress shown | not executed; medium (holds when the build strips types without type-checking) | App.RefreshAsWritten (with Scenarios.RefreshAsWrittenIgnoresLiveData) | App.Refresh |

=== FILE: app.dfy ===
/** The state of the App component (App.tsx) and the handlers that change
    it, minus rendering. `setX` calls become record updates. */
module App {
  import opened Wrappers
  import opened Seqs
  import opened Types
  import opened Constants
  import opened Portfolio
  import opened ResponseText
  import opened GeminiService

  /** The data-source switch of the header (App.tsx:17, 160, 166). */
  datatype DataSource = Official | International

  /** Initial text of the fetch-status line (App.tsx:20). */
  const InitialFetchStatus: string := "初始化中..."

  /** The component state of App.tsx:15-23 that the core reads or writes. */
  datatype AppState = AppState(
    activeSport: SportType,
    dataSource: DataSource,
    matches: seq<Match>,
    isFetching: bool,
    fetchStatus: string,
    portfolio: seq<UserSelection>,
    isAuditing: bool,
    auditResult: Option<AuditResponse>)

  /** The state on first render (App.tsx:15-23). */
  function InitialState(): (st: AppState)
    ensures st.portfolio == [] && KeysUnique(st.portfolio)
    ensures st.auditResult == None && st.matches == [] && st.isFetching
  {
    AppState(Football, Official, [], true, InitialFetchStatus, [], false, None)
  }

  // ---------------------------------------------------------------------
  // Catalog

  /** `matches.filter(m => m.sport === sport)` (App.tsx:50-52). */
  function FilterBySport(matches: seq<Match>, sport: SportType): (r: seq<Match>)
    ensures IsSubsequence(r, matches)
    ensures forall m :: m in r <==> m in matches && m.sport == sport
  {
    if |matches| == 0 then []
    else
      var rest := FilterBySport(matches[1..], sport);
      if matches[0].sport == sport then [matches[0]] + rest
      else
        assert |rest| > 0 ==> rest[0] in rest;
        rest
  }

  /** `filteredMatches`: the catalog entries of the active sport. */
  function FilteredMatches(st: AppState): (r: seq<Match>)
    ensures IsSubsequence(r, st.matches)
    ensures forall m :: m in r <==> m in st.matches && m.sport == st.activeSport
  {
    FilterBySport(st.matches, st.activeSport)
  }

  /** Filtering by each sport splits the catalog: the two parts together
      have as many entries as the catalog. */
  lemma {:induction false} FilterBySportPartition(matches: seq<Match>)
    ensures |FilterBySport(matches, Football)| + |FilterBySport(matches, Basketball)| == |matches|
  {
    if |matches| > 0 {
      FilterBySportPartition(matches[1..]);
    }
  }

  /** `initData` after the fetch has settled (App.tsx:27-44): a non-empty
      list is installed; an empty list or a thrown error installs the static
      catalog. */
  function InitData(st: AppState, run: FetchRun, today: CalendarDay): (r: AppState)
    ensures (run.result.Fulfilled? && |run.result.value| > 0) ==> r.matches == run.result.value
    ensures !(run.result.Fulfilled? && |run.result.value| > 0) ==> r.matches == MockMatches(today)
    ensures |r.matches| > 0
    ensures !r.isFetching
    ensures |run.reported| > 0 ==> r.fetchStatus == run.reported[|run.reported| - 1]
    ensures |run.reported| == 0 ==> r.fetchStatus == st.fetchStatus
    // only the catalog, the fetching flag and the status line change
    ensures r == st.(matches := r.matches, isFetching := false, fetchStatus := r.fetchStatus)
  {
    var status := if |run.reported| > 0 then run.reported[|run.reported| - 1] else st.fetchStatus;
    var catalog :=
      match run.result
      case Fulfilled(ms) => if |ms| > 0 then ms else MockMatches(today)
      case Rejected(_) => MockMatches(today);
    st.(matches := catalog, isFetching := false, fetchStatus := status)
  }

  /** A refresh whose fetch reports progress through a status callback,
      `fetchLotteryMatches((status) => setFetchStatus(status))`: a primary
      catalog that arrives in time is installed, a timed-out primary gives
      way to the fallback's catalog, and anything else ends on the static one.
      `client` is the error constructing the model client throws, if any. */
  function Refresh(st: AppState, client: Option<Error>, primary: Attempt, primaryLate: bool,
                   fallback: Attempt, parse: string -> Parse<CatalogJson>, today: CalendarDay): (r: AppState)
    ensures forall ms :: client.None? && !primaryLate && YieldsCatalog(primary, parse, ms) && |ms| > 0 ==>
              r.matches == ms && r.fetchStatus == PrimaryStatus
    ensures forall ms :: client.None? && primaryLate && YieldsCatalog(fallback, parse, ms) && |ms| > 0 ==>
              r.matches == ms && r.fetchStatus == FallbackStatus
    // a timely primary answer that is empty or a non-TIMEOUT failure: no
    // fallback, the static catalog under the primary status
    ensures var first := PerformFetch(Callback, PrimaryStatus, primary, parse);
            client.None? && !primaryLate &&
            !(first.result.Rejected? && first.result.error.message == TimeoutMessage) &&
            CatalogOf(primary, parse) == [] ==>
              r.matches == MockMatches(today) && r.fetchStatus == PrimaryStatus
    // no client: no request, no status, the static catalog
    ensures client.Some? ==> r.matches == MockMatches(today) && r.fetchStatus == st.fetchStatus
    ensures |r.matches| > 0
    ensures r == st.(matches := r.matches, isFetching := false, fetchStatus := r.fetchStatus)
  {
    FetchWithoutPrimaryCatalog(primary, primaryLate, fallback, parse);
    InitData(st, FetchLotteryMatches(client, Callback, primary, primaryLate, fallback, parse), today)
  }

  /** Whatever the providers answer, a refresh installs one of their
      catalogs or the static one, never anything else. */
  lemma RefreshSources(st: AppState, client: Option<Error>, primary: Attempt, primaryLate: bool,
                       fallback: Attempt, parse: string -> Parse<CatalogJson>, today: CalendarDay)
    ensures var r := Refresh(st, client, primary, primaryLate, fallback, parse, today);
            r.matches != CatalogOf(primary, parse) && r.matches != CatalogOf(fallback, parse) ==>
              r.matches == MockMatches(today)
  {
    FetchSources(client, Callback, primary, primaryLate, fallback, parse);
  }

  /** The refresh as App.tsx:30 writes it: the data-source string is passed
      where the service expects its status callback. Calling that string
      throws a TypeError before any request, the race ends with that error,
      the service answers with an empty list, and so the static catalog is
      installed whatever the providers would have answered. */
  function RefreshAsWritten(st: AppState, client: Option<Error>, primary: Attempt, primaryLate: bool,
                            fallback: Attempt, parse: string -> Parse<CatalogJson>,
                            today: CalendarDay): (r: AppState)
    ensures r.matches == MockMatches(today)
    ensures r == st.(matches := r.matches, isFetching := false)
  {
    InitData(st, FetchLotteryMatches(client, NotAFunction, primary, primaryLate, fallback, parse), today)
  }

  // ---------------------------------------------------------------------
  // Portfolio handlers

  /** `addToPortfolio` (App.tsx:54-64). */
  function AddToPortfolio(st: AppState, m: Match, market: MarketType, pick: string): (r: AppState)
    ensures r.auditResult == None
    ensures |r.portfolio| >= 1 && r.portfolio[|r.portfolio| - 1] == NewSelection(m, market, pick)
    ensures forall i :: 0 <= i < |r.portfolio| - 1 ==> KeyOf(r.portfolio[i]) != Key(m.id, market)
    // the entries under every other key survive, in order, ahead of the new one
    ensures r.portfolio[..|r.portfolio| - 1] == Without(st.portfolio, Key(m.id, market))
    ensures KeysUnique(st.portfolio) ==> KeysUnique(r.portfolio)
    // only the portfolio and the audit result change
    ensures r == st.(portfolio := r.portfolio, auditResult := None)
  {
    AddSelectionLast(st.portfolio, m, market, pick);
    AddSelectionKeepsUnique(st.portfolio, m, market, pick);
    st.(portfolio := AddSelection(st.portfolio, m, market, pick), auditResult := None)
  }

  /** `removeFromPortfolio` (App.tsx:66-69). */
  function RemoveFromPortfolio(st: AppState, index: int): (r: AppState)
    ensures r.auditResult == None
    ensures 0 <= index < |st.portfolio| ==>
              r.portfolio == st.portfolio[..index] + st.portfolio[index + 1..]
    ensures !(0 <= index < |st.portfolio|) ==> r.portfolio == st.portfolio
    ensures KeysUnique(st.portfolio) ==> KeysUnique(r.portfolio)
    ensures r == st.(portfolio := r.portfolio, auditResult := None)
  {
    RemoveAtSpec(st.portfolio, index);
    RemoveAtKeepsUnique(st.portfolio, index);
    st.(portfolio := RemoveAt(st.portfolio, index), auditResult := None)
  }

  /** `handleAudit` once the audit call has settled (App.tsx:71-83): nothing
      happens on an empty portfolio; otherwise a successful audit is stored,
      and a failed one leaves the previous result in place. */
  function HandleAudit(st: AppState, client: Option<Error>, oracle: AuditRequest -> Attempt,
                       parse: string -> Parse<AuditResponse>): (r: AppState)
    ensures |st.portfolio| == 0 ==> r == st
    ensures |st.portfolio| > 0 ==>
      && !r.isAuditing
      && r.portfolio == st.portfolio && r.matches == st.matches
      && var outcome := AuditPortfolio(client, st.portfolio, st.matches, oracle, parse);
      && (outcome.Fulfilled? ==> r.auditResult == Some(outcome.value))
      && (outcome.Rejected? ==> r.auditResult == st.auditResult)
    // only the audit result and the auditing flag change
    ensures |st.portfolio| > 0 ==> r == st.(auditResult := r.auditResult, isAuditing := false)
  {
    if |st.portfolio| == 0 then st
    else
      match AuditPortfolio(client, st.portfolio, st.matches, oracle, parse)
      case Fulfilled(result) => st.(auditResult := Some(result), isAuditing := false)
      case Rejected(_) => st.(isAuditing := false)
  }

  // ---------------------------------------------------------------------
  // Correct-score lookup (App.tsx:85-93)

  /** The correct-score ladder of a match, empty when it has none (App.tsx:86). */
  function Scores(m: Match): seq<MarketOdds> {
    m.context.markets.correctScore.GetOr([])
  }

  /** Position of the first ladder entry labelled `caption`, if any. This is
      the same first-match search as `GeminiService.FirstIndexOf`, keyed on
      the label instead of the match id; both are kept monomorphic so that
      their contracts and every contract built on them speak of fields
      directly rather than of a key-selecting function value. */
  function FirstLabelIndex(scores: seq<MarketOdds>, caption: string): (r: Option<nat>)
    ensures r.Some? ==> r.value < |scores| && scores[r.value].labelText == caption
    ensures r.Some? ==> forall j :: 0 <= j < r.value ==> scores[j].labelText != caption
    ensures r.None? <==> forall j :: 0 <= j < |scores| ==> scores[j].labelText != caption
  {
    if |scores| == 0 then None
    else if scores[0].labelText == caption then Some(0)
    else match FirstLabelIndex(scores[1..], caption)
      case Some(i) => Some(i + 1)
      case None => None
  }

  /** `findOdds(caption)`: the odds of the first ladder entry with that label. */
  function FindOdds(m: Match, caption: string): (r: Option<real>)
    ensures r.None? <==> forall j :: 0 <= j < |Scores(m)| ==> Scores(m)[j].labelText != caption
    ensures r.Some? ==> exists i :: 0 <= i < |Scores(m)| && Scores(m)[i].labelText == caption
                                   && Scores(m)[i].odds == r.value
                                   && forall j :: 0 <= j < i ==> Scores(m)[j].labelText != caption
  {
    match FirstLabelIndex(Scores(m), caption)
    case Some(i) => Some(Scores(m)[i].odds)
    case None => None
  }
}

=== FILE: constants.dfy ===
/** The bundled fallback catalog and its date formatting (constants.ts). The
    clock is a parameter: `CalendarDay` is what `new Date()` reads for the
    local month and day. */
module Constants {
  import opened Wrappers
  import opened Types

  /** Local month (1-12) and day of month (1-31) of "today". */
  datatype CalendarDay = CalendarDay(month: nat, day: nat)

  predicate IsDigit(c: char) {
    '0' <= c <= '9'
  }

  function DigitChar(d: nat): (c: char)
    requires d < 10
    ensures IsDigit(c)
    ensures c as int - '0' as int == d
  {
    ('0' as int + d) as char
  }

  /** The numeric value of a string of decimal digits. */
  function DigitsValue(s: string): nat
    requires forall i :: 0 <= i < |s| ==> IsDigit(s[i])
  {
    if |s| == 0 then 0
    else
      assert IsDigit(s[|s| - 1]);
      10 * DigitsValue(s[..|s| - 1]) + (s[|s| - 1] as int - '0' as int)
  }

  /** `String(n)` for a natural number: its decimal digits, without leading zeros. */
  function DecimalString(n: nat): (r: string)
    ensures |r| >= 1
    ensures forall i :: 0 <= i < |r| ==> IsDigit(r[i])
    ensures |r| == 1 <==> n < 10
    ensures |r| == 2 <==> 10 <= n < 100
    ensures n > 0 ==> r[0] != '0'
  {
    if n < 10 then [DigitChar(n)] else DecimalString(n / 10) + [DigitChar(n % 10)]
  }

  /** Reading the decimal digits back gives the number. */
  lemma {:induction false} DecimalStringRoundTrip(n: nat)
    ensures DigitsValue(DecimalString(n)) == n
  {
    var r := DecimalString(n);
    if n >= 10 {
      DecimalStringRoundTrip(n / 10);
      assert r[..|r| - 1] == DecimalString(n / 10);
    }
  }

  /** `s.padStart(2, '0')`. */
  function PadStart2(s: string): (r: string)
    ensures |s| >= 2 ==> r == s
    ensures |s| < 2 ==> |r| == 2 && r[2 - |s|..] == s
    ensures forall i :: 0 <= i < 2 - |s| ==> r[i] == '0'
    decreases 2 - |s|
  {
    if |s| >= 2 then s else PadStart2(['0'] + s)
  }

  /** The month and day padding of constants.ts:7-8: any value below 100, in
      particular every month 1..12 and day 1..31, becomes exactly two digits
      that read back as the value. */
  lemma PadTwoDigits(n: nat)
    requires n < 100
    ensures |PadStart2(DecimalString(n))| == 2
    ensures forall i :: 0 <= i < 2 ==> IsDigit(PadStart2(DecimalString(n))[i])
    ensures DigitsValue(PadStart2(DecimalString(n))) == n
  {
    var s := DecimalString(n);
    var r := PadStart2(s);
    DecimalStringRoundTrip(n);
    if n < 10 {
      assert r == ['0'] + s;
      assert r[..1] == ['0'];
    } else {
      assert r == s;
    }
  }

  /** `getMatchDate(0, time)` of constants.ts:4-10: "MM-DD time". */
  function GetMatchDate(today: CalendarDay, time: string): (r: string)
    // at least two characters each for month and day, then " " and `time`
    ensures |r| >= 6 + |time|
    ensures r[|r| - |time| - 1] == ' ' && r[|r| - |time|..] == time
  {
    PadStart2(DecimalString(today.month)) + "-" + PadStart2(DecimalString(today.day)) + " " + time
  }

  /** `r` reads "MM-DD time": two digits giving `month`, a dash, two digits
      giving `day`, a space, then `time`. */
  predicate IsDateStamp(r: string, month: nat, day: nat, time: string) {
    && |r| == 6 + |time|
    && IsDigit(r[0]) && IsDigit(r[1]) && r[2] == '-'
    && IsDigit(r[3]) && IsDigit(r[4]) && r[5] == ' ' && r[6..] == time
    && DigitsValue([r[0], r[1]]) == month
    && DigitsValue([r[3], r[4]]) == day
  }

  /** "MM-DD time" built from two 2-digit fields splits back into them. */
  lemma DateParts(mm: string, dd: string, time: string, month: nat, day: nat)
    requires |mm| == 2 && |dd| == 2
    requires forall i :: 0 <= i < 2 ==> IsDigit(mm[i]) && IsDigit(dd[i])
    requires DigitsValue(mm) == month && DigitsValue(dd) == day
    ensures IsDateStamp(mm + "-" + dd + " " + time, month, day, time)
  {
    var r := mm + "-" + dd + " " + time;
    assert [r[0], r[1]] == mm;
    assert [r[3], r[4]] == dd;
    assert r[6..] == time;
  }

  /** For any real calendar day the start time reads `MM-DD time`, with the
      month and day recoverable from their two digits. */
  lemma MatchDateShape(today: CalendarDay, time: string)
    requires 1 <= today.month <= 12 && 1 <= today.day <= 31
    ensures IsDateStamp(GetMatchDate(today, time), today.month, today.day, time)
  {
    PadTwoDigits(today.month);
    PadTwoDigits(today.day);
    DateParts(PadStart2(DecimalString(today.month)), PadStart2(DecimalString(today.day)), time,
              today.month, today.day);
  }

  /** The correct-score ladder of the football fixture (constants.ts:28-39). */
  const FootballCorrectScores: seq<MarketOdds> := [
    MarketOdds("1:0", "1-0", 7.5),
    MarketOdds("2:0", "2-0", 9.0),
    MarketOdds("2:1", "2-1", 8.0),
    MarketOdds("0:0", "0-0", 10.0),
    MarketOdds("1:1", "1-1", 6.0),
    MarketOdds("0:1", "0-1", 11.0),
    MarketOdds("0:2", "0-2", 18.0),
    MarketOdds("胜其它", "H-O", 35.0),
    MarketOdds("平其它", "D-O", 50.0),
    MarketOdds("负其它", "A-O", 60.0)
  ]

  /** `MOCK_MATCHES` (constants.ts:12-70): the static catalog used when no live data arrives. */
  function MockMatches(today: CalendarDay): (r: seq<Match>)
    ensures |r| == 2 && r[0].id != r[1].id
    ensures r[0].sport == Football && r[1].sport == Basketball
  {
    [ Match("f_1001", Football, "曼彻斯特联", "切尔西", "英超 (001)", GetMatchDate(today, "20:15"),
        MatchContext(
          [Injury("布鲁诺-费尔南德斯", "停赛", "Key")],
          RecentForm("D-D-L", "W-W-W"),
          InternationalOdds(Prices(1.95, 3.50, 3.80), "主胜凯利指数从0.94升至0.98，机构避险明显", None),
          Markets(Some(FootballCorrectScores), Some("-0.5")),
          Stats(None, None, Some(1.2), Some(2.1)),
          LeagueRank(6.0, 8.0),
          High,
          Some("更衣室传闻 Ten Hag 失去掌控，切尔西近期士气高涨。"))),
      Match("b_2001", Basketball, "洛杉矶湖人", "金州勇士", "NBA (301)", GetMatchDate(today, "10:00"),
        MatchContext(
          [Injury("詹姆斯", "缺阵", "High")],
          RecentForm("L-L-W", "W-W-L"),
          InternationalOdds(Prices(2.35, 0.0, 1.65), "离散度增加，湖人受让分盘持续受热", None),
          Markets(None, Some("主+4.5")),
          Stats(Some(105.2), Some(110.5), None, None),
          LeagueRank(9.0, 10.0),
          High,
          None))
    ]
  }

  /** The fixture's shape: two matches with distinct ids, one per sport; the
      football ladder has pairwise distinct labels and positive odds; the
      basketball match has no correct-score market. */
  lemma MockMatchesShape(today: CalendarDay)
    ensures var ms := MockMatches(today);
      && |ms| == 2
      && ms[0].id == "f_1001" && ms[1].id == "b_2001" && ms[0].id != ms[1].id
      && ms[0].sport == Football && ms[1].sport == Basketball
      && ms[0].context.markets.correctScore == Some(FootballCorrectScores)
      && ms[1].context.markets.correctScore == None
    ensures forall i, j :: 0 <= i < j < |FootballCorrectScores| ==>
      FootballCorrectScores[i].labelText != FootballCorrectScores[j].labelText
    ensures forall i :: 0 <= i < |FootballCorrectScores| ==> FootballCorrectScores[i].odds > 0.0
  {
    FootballLadderShape();
  }

  /** The football ladder: ten entries, pairwise distinct labels, positive odds. */
  lemma FootballLadderShape()
    ensures |FootballCorrectScores| == 10
    ensures forall i, j :: 0 <= i < j < |FootballCorrectScores| ==>
      FootballCorrectScores[i].labelText != FootballCorrectScores[j].labelText
    ensures forall i :: 0 <= i < |FootballCorrectScores| ==> FootballCorrectScores[i].odds > 0.0
  {
  }
}

=== FILE: gemini_service.dfy ===
/** The data-acquisition and audit service (services/geminiService.ts). The
    model calls (`generateContent`), `JSON.parse` and the 15-second timer are
    not modelled: each call's outcome is a parameter. */
module GeminiService {
  import opened Wrappers
  import opened Seqs
  import opened Types
  import opened ResponseText

  /** Message of the error the timer rejects with (services/geminiService.ts:145). */
  const TimeoutMessage: string := "TIMEOUT"
  /** Status reported before the primary request (services/geminiService.ts:143). */
  const PrimaryStatus: string := "正在连接中国体彩官方中心..."
  /** Status reported before the fallback request (services/geminiService.ts:152). */
  const FallbackStatus: string := "官方源超时，正在切换备用赔率中心..."
  /** Message `auditPortfolio` throws on an empty answer (services/geminiService.ts:198). */
  const EmptyResponseMessage: string := "Empty response"
  /** Message of the TypeError raised by calling a value that is not a function. */
  const NotAFunctionMessage: string := "onStatusUpdate is not a function"

  /** What one `generateContent` call gave back: a response whose `text` may
      be empty (an absent text counts as empty), or a thrown error. */
  datatype Attempt = Responded(text: string) | Threw(error: Error)

  /** What `JSON.parse` gives back: a value, or a thrown SyntaxError. */
  datatype Parse<+T> = Parsed(value: T) | SyntaxError(error: Error)

  /** A parsed catalog answer as far as `performFetch` inspects it: an array of
      matches, or any other JSON value. */
  datatype CatalogJson = JsonArray(items: seq<Match>) | JsonNonArray

  /** The `onStatusUpdate` argument: omitted, a function, or a value that is
      not a function (which `onStatusUpdate?.(status)` cannot call). */
  datatype StatusCallback = NoCallback | Callback | NotAFunction

  /** One `performFetch` call: how its promise settles and which statuses it
      handed to the callback. */
  datatype FetchStep = FetchStep(result: Settled<seq<Match>>, reported: seq<string>)

  /** `performFetch` (services/geminiService.ts:36-139): report the status,
      ask the model, clean and parse its text, keep only an array. */
  function PerformFetch(onStatus: StatusCallback, status: string, attempt: Attempt,
                        parse: string -> Parse<CatalogJson>): (r: FetchStep)
    ensures r.reported == (if onStatus.Callback? then [status] else [])
    ensures onStatus.NotAFunction? ==> r.result == Rejected(Error(NotAFunctionMessage))
    // once the status is reported: an array answer is returned as it is,
    // an empty text or any other JSON value gives [], and the model call's
    // error or the parser's SyntaxError is propagated
    ensures !onStatus.NotAFunction? ==>
      && (forall ms :: YieldsCatalog(attempt, parse, ms) ==> r.result == Fulfilled(ms))
      && (attempt == Responded("") ==> r.result == Fulfilled([]))
      && (attempt.Threw? ==> r.result == Rejected(attempt.error))
      && (attempt.Responded? && attempt.text != "" ==>
            var answer := parse(Clean(attempt.text));
            && (answer == Parsed(JsonNonArray) ==> r.result == Fulfilled([]))
            && (answer.SyntaxError? ==> r.result == Rejected(answer.error)))
    // a non-empty list can only come from an array answer
    ensures r.result.Fulfilled? && r.result.value != [] ==> YieldsCatalog(attempt, parse, r.result.value)
  {
    match onStatus
    case NotAFunction => FetchStep(Rejected(Error(NotAFunctionMessage)), [])
    case _ =>
      var reported := if onStatus.Callback? then [status] else [];
      match attempt
      case Threw(e) => FetchStep(Rejected(e), reported)
      case Responded(text) =>
        if text == "" then FetchStep(Fulfilled([]), reported)
        else
          match parse(Clean(text))
          case SyntaxError(e) => FetchStep(Rejected(e), reported)
          case Parsed(JsonArray(items)) => FetchStep(Fulfilled(items), reported)
          case Parsed(JsonNonArray) => FetchStep(Fulfilled([]), reported)
  }

  /** The attempt answered with a non-empty text that parses to the array `ms`. */
  predicate YieldsCatalog(attempt: Attempt, parse: string -> Parse<CatalogJson>, ms: seq<Match>) {
    attempt.Responded? && attempt.text != "" && parse(Clean(attempt.text)) == Parsed(JsonArray(ms))
  }

  /** The matches an attempt's answer parses to, or none. */
  function CatalogOf(attempt: Attempt, parse: string -> Parse<CatalogJson>): seq<Match> {
    if attempt.Responded? && attempt.text != "" && parse(Clean(attempt.text)).Parsed?
       && parse(Clean(attempt.text)).value.JsonArray?
    then parse(Clean(attempt.text)).value.items
    else []
  }

  /** A whole `fetchLotteryMatches` call: its outcome, the statuses reported,
      and how many `performFetch` calls it made. */
  datatype FetchRun = FetchRun(result: Settled<seq<Match>>, reported: seq<string>, fetches: nat)

  /** `fetchLotteryMatches` (services/geminiService.ts:8-157). `client` is the
      error `new GoogleGenAI(...)` throws, if any: it is raised outside the
      `try`, so it rejects the call before any request. `primaryLate` says
      the 15-second timer fired before the primary request settled, so that
      `Promise.race` ends with the timer's TIMEOUT; a primary call that throws
      before its first `await` has already settled when the race starts, so
      it is never late. */
  function FetchLotteryMatches(client: Option<Error>, onStatus: StatusCallback, primary: Attempt,
                               primaryLate: bool, fallback: Attempt,
                               parse: string -> Parse<CatalogJson>): (r: FetchRun)
    ensures client.Some? ==> r == FetchRun(Rejected(client.value), [], 0)
    ensures client.None? ==> 1 <= r.fetches <= 2
    // with a client, only a fallback failure escapes as an error
    ensures client.None? && r.result.Rejected? ==> r.fetches == 2
    // primary in time: its outcome stands, no fallback; TIMEOUT: exactly one
    // fallback, whose outcome is propagated; any other error: an empty list,
    // with only the primary status reported
    ensures var first := PerformFetch(onStatus, PrimaryStatus, primary, parse);
            var second := PerformFetch(onStatus, FallbackStatus, fallback, parse);
            var timedOut := (primaryLate && !onStatus.NotAFunction?) ||
                            (first.result.Rejected? && first.result.error.message == TimeoutMessage);
            client.None? ==>
            && (!timedOut && first.result.Fulfilled? ==>
                  r.result == first.result && r.fetches == 1 && r.reported == first.reported)
            && (timedOut ==>
                  r.result == second.result && r.fetches == 2 && r.reported == first.reported + second.reported)
            && (!timedOut && first.result.Rejected? ==>
                  r.result == Fulfilled([]) && r.fetches == 1 && r.reported == first.reported)
  {
    if client.Some? then FetchRun(Rejected(client.value), [], 0)
    else
      var first := PerformFetch(onStatus, PrimaryStatus, primary, parse);
      var raced := if primaryLate && !onStatus.NotAFunction? then Rejected(Error(TimeoutMessage))
                   else first.result;
      match raced
      case Fulfilled(ms) => FetchRun(Fulfilled(ms), first.reported, 1)
      case Rejected(e) =>
        if e.message == TimeoutMessage then
          var second := PerformFetch(onStatus, FallbackStatus, fallback, parse);
          FetchRun(second.result, first.reported + second.reported, 2)
        else
          FetchRun(Fulfilled([]), first.reported, 1)
  }

  /** A non-empty list from `fetchLotteryMatches` is the array one of the two
      providers answered with; nothing else is ever returned as data. */
  lemma FetchSources(client: Option<Error>, onStatus: StatusCallback, primary: Attempt,
                     primaryLate: bool, fallback: Attempt, parse: string -> Parse<CatalogJson>)
    ensures var r := FetchLotteryMatches(client, onStatus, primary, primaryLate, fallback, parse);
            r.result.Fulfilled? && r.result.value != [] ==>
              r.result.value == CatalogOf(primary, parse) || r.result.value == CatalogOf(fallback, parse)
  {
    var r := FetchLotteryMatches(client, onStatus, primary, primaryLate, fallback, parse);
    if r.result.Fulfilled? && r.result.value != [] {
      var first := PerformFetch(onStatus, PrimaryStatus, primary, parse);
      var second := PerformFetch(onStatus, FallbackStatus, fallback, parse);
      assert r.result == first.result || r.result == second.result;
    }
  }

  /** A primary answer in time that holds no catalog (empty, not an array,
      or a failure other than TIMEOUT) ends the call with an empty list,
      without asking the fallback, under the primary status alone. */
  lemma FetchWithoutPrimaryCatalog(primary: Attempt, primaryLate: bool, fallback: Attempt,
                                   parse: string -> Parse<CatalogJson>)
    ensures var first := PerformFetch(Callback, PrimaryStatus, primary, parse);
            var r := FetchLotteryMatches(None, Callback, primary, primaryLate, fallback, parse);
            !primaryLate && !(first.result.Rejected? && first.result.error.message == TimeoutMessage) &&
            CatalogOf(primary, parse) == [] ==>
              r.result == Fulfilled([]) && r.fetches == 1 && r.reported == [PrimaryStatus]
  {
    var first := PerformFetch(Callback, PrimaryStatus, primary, parse);
    if first.result.Fulfilled? && first.result.value != [] {
      assert YieldsCatalog(primary, parse, first.result.value);
    }
  }

  // ---------------------------------------------------------------------
  // Audit request context (services/geminiService.ts:165-174)

  /** One element of `matchContext`. */
  datatype ContextEntry = ContextEntry(matchId: string, matchName: string, details: MatchContext,
                                       userPick: string, market: MarketType)

  /** Position of the first match with id `id`, if any. */
  function FirstIndexOf(matches: seq<Match>, id: string): (r: Option<nat>)
    ensures r.Some? ==> r.value < |matches| && matches[r.value].id == id
    ensures r.Some? ==> forall j :: 0 <= j < r.value ==> matches[j].id != id
    ensures r.None? <==> forall j :: 0 <= j < |matches| ==> matches[j].id != id
  {
    if |matches| == 0 then None
    else if matches[0].id == id then Some(0)
    else match FirstIndexOf(matches[1..], id)
      case Some(i) => Some(i + 1)
      case None => None
  }

  /** `matches.find(m => m.id === id)`. */
  function FindMatch(matches: seq<Match>, id: string): (r: Option<Match>)
    ensures r.Some? ==> r.value.id == id && r.value in matches
    ensures r.Some? ==> exists i :: 0 <= i < |matches| && matches[i] == r.value
                                   && forall j :: 0 <= j < i ==> matches[j].id != id
    ensures r.None? <==> forall j :: 0 <= j < |matches| ==> matches[j].id != id
  {
    match FirstIndexOf(matches, id)
    case Some(i) => Some(matches[i])
    case None => None
  }

  /** The context entry built from a selection and its catalog match. */
  function EntryFor(m: Match, s: UserSelection): ContextEntry {
    ContextEntry(m.id, m.homeTeam + " vs " + m.awayTeam, m.context, s.pick, s.marketType)
  }

  /** `portfolio.map(...).filter(Boolean)` of services/geminiService.ts:165-174. */
  function MatchContextJoin(portfolio: seq<UserSelection>, matches: seq<Match>): (r: seq<ContextEntry>)
    ensures |r| == |Resolvable(portfolio, matches)|
    ensures forall e :: e in r ==> FindMatch(matches, e.matchId).Some?
  {
    if |portfolio| == 0 then []
    else
      (match FindMatch(matches, portfolio[0].matchId)
       case Some(m) => [EntryFor(m, portfolio[0])]
       case None => [])
      + MatchContextJoin(portfolio[1..], matches)
  }

  /** The selections whose match is in the catalog, in portfolio order. */
  function Resolvable(portfolio: seq<UserSelection>, matches: seq<Match>): (r: seq<UserSelection>)
    ensures IsSubsequence(r, portfolio)
    ensures forall x {:trigger x in r} :: x in r <==> x in portfolio && FindMatch(matches, x.matchId).Some?
    // every resolvable selection is kept as many times as it occurs
    ensures forall x {:trigger multiset(r)[x]} :: multiset(r)[x] ==
              if FindMatch(matches, x.matchId).Some? then multiset(portfolio)[x] else 0
  {
    if |portfolio| == 0 then []
    else
      var rest := Resolvable(portfolio[1..], matches);
      assert portfolio == [portfolio[0]] + portfolio[1..];
      if FindMatch(matches, portfolio[0].matchId).Some? then [portfolio[0]] + rest
      else
        assert |rest| > 0 ==> rest[0] in rest;
        rest
  }

  /** `e` is the context entry of selection `s`: match id, pick and market
      from the selection, name and details from the first catalog match with
      that id. */
  predicate DescribesSelection(e: ContextEntry, s: UserSelection, matches: seq<Match>) {
    && FindMatch(matches, s.matchId).Some?
    && var m := FindMatch(matches, s.matchId).value;
    && e.matchId == s.matchId
    && e.matchName == m.homeTeam + " vs " + m.awayTeam
    && e.details == m.context
    && e.userPick == s.pick
    && e.market == s.marketType
  }

  /** The join has one entry per resolvable selection, in portfolio order;
      each entry takes its match id, name and details from the FIRST catalog
      match with that id, and its pick and market from the selection.
      Selections whose match is missing are dropped. */
  lemma {:induction false} MatchContextJoinSpec(portfolio: seq<UserSelection>, matches: seq<Match>)
    ensures var r := MatchContextJoin(portfolio, matches);
            var sel := Resolvable(portfolio, matches);
      && |r| == |sel|
      && forall j :: 0 <= j < |r| ==> DescribesSelection(r[j], sel[j], matches)
  {
    if |portfolio| > 0 {
      var r := MatchContextJoin(portfolio, matches);
      var sel := Resolvable(portfolio, matches);
      var rr := MatchContextJoin(portfolio[1..], matches);
      var rs := Resolvable(portfolio[1..], matches);
      MatchContextJoinSpec(portfolio[1..], matches);
      match FindMatch(matches, portfolio[0].matchId)
      case Some(m) =>
        assert r == [EntryFor(m, portfolio[0])] + rr;
        assert sel == [portfolio[0]] + rs;
        DescribesCons(EntryFor(m, portfolio[0]), portfolio[0], rr, rs, matches);
      case None =>
        assert r == rr && sel == rs;
    }
  }

  /** Pairing one more described selection in front keeps the pairing. */
  lemma DescribesCons(e: ContextEntry, s: UserSelection, es: seq<ContextEntry>,
                      ss: seq<UserSelection>, matches: seq<Match>)
    requires DescribesSelection(e, s, matches)
    requires |es| == |ss| && forall j :: 0 <= j < |es| ==> DescribesSelection(es[j], ss[j], matches)
    ensures forall j :: 0 <= j < |es| + 1 ==> DescribesSelection(([e] + es)[j], ([s] + ss)[j], matches)
  {
    forall j | 0 <= j < |es| + 1
      ensures DescribesSelection(([e] + es)[j], ([s] + ss)[j], matches)
    {
      if j > 0 {
        assert ([e] + es)[j] == es[j - 1] && ([s] + ss)[j] == ss[j - 1];
      }
    }
  }

  /** Every selection is kept exactly when its match is in the catalog. */
  lemma MatchContextJoinComplete(portfolio: seq<UserSelection>, matches: seq<Match>)
    requires forall x :: x in portfolio ==> exists j :: 0 <= j < |matches| && matches[j].id == x.matchId
    ensures |MatchContextJoin(portfolio, matches)| == |portfolio|
  {
    MatchContextJoinSpec(portfolio, matches);
    ResolvableAll(portfolio, matches);
  }

  lemma {:induction false} ResolvableAll(portfolio: seq<UserSelection>, matches: seq<Match>)
    requires forall x :: x in portfolio ==> FindMatch(matches, x.matchId).Some?
    ensures Resolvable(portfolio, matches) == portfolio
  {
    if |portfolio| > 0 {
      var rest := portfolio[1..];
      assert FindMatch(matches, portfolio[0].matchId).Some? by {
        assert portfolio[0] in portfolio;
      }
      forall x | x in rest
        ensures FindMatch(matches, x.matchId).Some?
      {
        assert x in portfolio;
      }
      ResolvableAll(rest, matches);
      assert portfolio == [portfolio[0]] + rest;
    }
  }

  // ---------------------------------------------------------------------
  // Audit call (services/geminiService.ts:159-205)

  /** What the oracle is shown: the portfolio and the joined match context. */
  datatype AuditRequest = AuditRequest(portfolio: seq<UserSelection>, context: seq<ContextEntry>)

  /** `auditPortfolio`: build the request, ask the oracle, clean and parse its
      answer. The answer is cast, not validated. Every error is re-thrown;
      there is no partial result. `client` is the error `new GoogleGenAI(...)`
      throws, if any (services/geminiService.ts:163), which rejects the call
      before the oracle is asked. */
  function AuditPortfolio(client: Option<Error>, portfolio: seq<UserSelection>, matches: seq<Match>,
                          oracle: AuditRequest -> Attempt,
                          parse: string -> Parse<AuditResponse>): (r: Settled<AuditResponse>)
    ensures client.Some? ==> r == Rejected(client.value)
    ensures var answer := oracle(AuditRequest(portfolio, MatchContextJoin(portfolio, matches)));
      client.None? ==>
      && (r.Fulfilled? <==> answer.Responded? && answer.text != "" && parse(Clean(answer.text)).Parsed?)
      && (r.Fulfilled? ==> parse(Clean(answer.text)) == Parsed(r.value))
      && (answer == Responded("") ==> r == Rejected(Error(EmptyResponseMessage)))
      && (answer.Threw? ==> r == Rejected(answer.error))
      && (answer.Responded? && answer.text != "" && parse(Clean(answer.text)).SyntaxError? ==>
            r == Rejected(parse(Clean(answer.text)).error))
  {
    if client.Some? then Rejected(client.value)
    else
      var request := AuditRequest(portfolio, MatchContextJoin(portfolio, matches));
      match oracle(request)
      case Threw(e) => Rejected(e)
      case Responded(text) =>
        if text == "" then Rejected(Error(EmptyResponseMessage))
        else
          match parse(Clean(text))
          case Parsed(v) => Fulfilled(v)
          case SyntaxError(e) => Rejected(e)
  }
}

=== FILE: portfolio.dfy ===
/** The portfolio list of App.tsx:54-69: adding a pick replaces any earlier
    pick on the same match and market and appends the new one; removing
    deletes by position. */
module Portfolio {
  import opened Wrappers
  import opened Seqs
  import opened Types

  /** Identity of a selection in the portfolio: its match and its market
      (App.tsx:56-57). The pick itself is not part of it. */
  datatype Key = Key(matchId: string, market: MarketType)

  function KeyOf(s: UserSelection): Key {
    Key(s.matchId, s.marketType)
  }

  /** No two entries share a key. */
  predicate KeysUnique(p: seq<UserSelection>) {
    forall i, j :: 0 <= i < j < |p| ==> KeyOf(p[i]) != KeyOf(p[j])
  }

  /** How many entries carry key `k`. */
  function CountKey(p: seq<UserSelection>, k: Key): (n: nat)
    ensures n <= |p|
    ensures n == 0 <==> forall x :: x in p ==> KeyOf(x) != k
  {
    if |p| == 0 then 0
    else (if KeyOf(p[0]) == k then 1 else 0) + CountKey(p[1..], k)
  }

  /** The entries whose key is not `k`, in their original order (the filter of App.tsx:57). */
  function Without(p: seq<UserSelection>, k: Key): (r: seq<UserSelection>)
    ensures forall x :: x in r <==> x in p && KeyOf(x) != k
    ensures IsSubsequence(r, p)
    ensures |r| == |p| - CountKey(p, k)
  {
    if |p| == 0 then []
    else if KeyOf(p[0]) == k then Without(p[1..], k)
    else [p[0]] + Without(p[1..], k)
  }

  /** The entry App.tsx:58-61 appends for `pick` on `market` of match `m`. */
  function NewSelection(m: Match, market: MarketType, pick: string): UserSelection {
    UserSelection(m.id, m.homeTeam + " VS " + m.awayTeam, m.sport, market, pick)
  }

  /** The state update of `addToPortfolio` (App.tsx:55-62). */
  function AddSelection(p: seq<UserSelection>, m: Match, market: MarketType, pick: string): (r: seq<UserSelection>)
    // the new entry joins the entries under other keys, and is then the
    // only one under its own key
    ensures forall x :: x in r <==> x == NewSelection(m, market, pick) || (x in p && KeyOf(x) != Key(m.id, market))
    ensures CountKey(r, Key(m.id, market)) == 1
  {
    var k := Key(m.id, market);
    CountAppend(Without(p, k), [NewSelection(m, market, pick)], k);
    Without(p, k) + [NewSelection(m, market, pick)]
  }

  /** The state update of `removeFromPortfolio` (App.tsx:67): keep every entry
      whose position differs from `index`. */
  function RemoveAt(p: seq<UserSelection>, index: int): (r: seq<UserSelection>)
    ensures |r| == |p| - (if 0 <= index < |p| then 1 else 0)
    ensures forall x :: x in r ==> x in p
  {
    if |p| == 0 then []
    else (if index == 0 then [] else [p[0]]) + RemoveAt(p[1..], index - 1)
  }

  // ---------------------------------------------------------------------
  // Helper facts about keys and filtering

  lemma UniqueCons(x: UserSelection, q: seq<UserSelection>)
    ensures KeysUnique([x] + q) <==> (forall y :: y in q ==> KeyOf(y) != KeyOf(x)) && KeysUnique(q)
  {
    var s := [x] + q;
    if (forall y :: y in q ==> KeyOf(y) != KeyOf(x)) && KeysUnique(q) {
      forall i, j | 0 <= i < j < |s|
        ensures KeyOf(s[i]) != KeyOf(s[j])
      {
        if i == 0 {
          assert s[j] == q[j - 1];
        } else {
          assert s[i] == q[i - 1] && s[j] == q[j - 1];
        }
      }
    }
    if KeysUnique(s) {
      forall y | y in q
        ensures KeyOf(y) != KeyOf(x)
      {
        var j :| 0 <= j < |q| && q[j] == y;
        assert s[0] == x && s[j + 1] == y;
        assert KeyOf(s[0]) != KeyOf(s[j + 1]);
      }
      forall i, j | 0 <= i < j < |q|
        ensures KeyOf(q[i]) != KeyOf(q[j])
      {
        assert s[i + 1] == q[i] && s[j + 1] == q[j];
      }
    }
  }

  /** A subsequence of a key-unique list is key-unique. */
  lemma {:induction false} SubsequenceKeepsUnique(s: seq<UserSelection>, t: seq<UserSelection>)
    requires IsSubsequence(s, t)
    requires KeysUnique(t)
    ensures KeysUnique(s)
    decreases |t|
  {
    if |s| == 0 {
    } else {
      assert t == [t[0]] + t[1..];
      UniqueCons(t[0], t[1..]);
      if s[0] == t[0] {
        SubsequenceKeepsUnique(s[1..], t[1..]);
        SubsequenceMembers(s[1..], t[1..]);
        assert s == [s[0]] + s[1..];
        UniqueCons(s[0], s[1..]);
      } else {
        SubsequenceKeepsUnique(s, t[1..]);
      }
    }
  }

  /** In a key-unique list every key occurs at most once. */
  lemma {:induction false} UniqueCountAtMostOne(p: seq<UserSelection>, k: Key)
    requires KeysUnique(p)
    ensures CountKey(p, k) <= 1
  {
    if |p| > 0 {
      assert p == [p[0]] + p[1..];
      UniqueCons(p[0], p[1..]);
      UniqueCountAtMostOne(p[1..], k);
      if KeyOf(p[0]) == k {
        assert CountKey(p[1..], k) == 0;
      }
    }
  }

  lemma {:induction false} WithoutAbsent(q: seq<UserSelection>, k: Key)
    requires forall x :: x in q ==> KeyOf(x) != k
    ensures Without(q, k) == q
  {
    if |q| > 0 {
      assert q[0] in q;
      assert forall x :: x in q[1..] ==> x in q;
      WithoutAbsent(q[1..], k);
      assert q == [q[0]] + q[1..];
    }
  }

  lemma {:induction false} WithoutAppend(a: seq<UserSelection>, b: seq<UserSelection>, k: Key)
    ensures Without(a + b, k) == Without(a, k) + Without(b, k)
  {
    if |a| == 0 {
      assert a + b == b;
    } else {
      assert (a + b)[0] == a[0];
      assert (a + b)[1..] == a[1..] + b;
      WithoutAppend(a[1..], b, k);
    }
  }

  // ---------------------------------------------------------------------
  // Properties of adding a pick

  /** After an add, exactly one entry carries the added key: the last one,
      which holds the new pick (App.tsx:57-61). */
  lemma AddSelectionLast(p: seq<UserSelection>, m: Match, market: MarketType, pick: string)
    ensures var r := AddSelection(p, m, market, pick);
      && |r| >= 1
      && r[|r| - 1] == NewSelection(m, market, pick)
      && r[|r| - 1].pick == pick && KeyOf(r[|r| - 1]) == Key(m.id, market)
      && CountKey(r, Key(m.id, market)) == 1
      && forall i :: 0 <= i < |r| - 1 ==> KeyOf(r[i]) != Key(m.id, market)
  {
    var k := Key(m.id, market);
    var w := Without(p, k);
    var r := AddSelection(p, m, market, pick);
    forall i | 0 <= i < |r| - 1
      ensures KeyOf(r[i]) != k
    {
      assert r[i] == w[i] && w[i] in w;
    }
    CountAppend(w, [NewSelection(m, market, pick)], k);
  }

  lemma {:induction false} CountAppend(a: seq<UserSelection>, b: seq<UserSelection>, k: Key)
    ensures CountKey(a + b, k) == CountKey(a, k) + CountKey(b, k)
  {
    if |a| == 0 {
      assert a + b == b;
    } else {
      assert (a + b)[0] == a[0];
      assert (a + b)[1..] == a[1..] + b;
      CountAppend(a[1..], b, k);
    }
  }

  /** Adding keeps keys unique; several entries may still share a match id
      when their markets differ (App.tsx:56-58). */
  lemma AddSelectionKeepsUnique(p: seq<UserSelection>, m: Match, market: MarketType, pick: string)
    ensures KeysUnique(p) ==> KeysUnique(AddSelection(p, m, market, pick))
  {
    if KeysUnique(p) {
      var k := Key(m.id, market);
      var w := Without(p, k);
      var s := NewSelection(m, market, pick);
      SubsequenceKeepsUnique(w, p);
      var r := w + [s];
      forall i, j | 0 <= i < j < |r|
        ensures KeyOf(r[i]) != KeyOf(r[j])
      {
        if j == |r| - 1 {
          assert r[i] == w[i] && w[i] in w;
        } else {
          assert r[i] == w[i] && r[j] == w[j];
        }
      }
    }
  }

  /** Adding under a key the list does not hold appends and removes nothing. */
  lemma AddSelectionFreshKey(p: seq<UserSelection>, m: Match, market: MarketType, pick: string)
    requires forall x :: x in p ==> KeyOf(x) != Key(m.id, market)
    ensures AddSelection(p, m, market, pick) == p + [NewSelection(m, market, pick)]
  {
    WithoutAbsent(p, Key(m.id, market));
  }

  /** Every entry with another key survives an add unchanged and in the same
      relative order, and nothing else survives (App.tsx:57). */
  lemma AddSelectionKeepsOthers(p: seq<UserSelection>, m: Match, market: MarketType, pick: string)
    ensures var r := AddSelection(p, m, market, pick);
      && IsSubsequence(r[..|r| - 1], p)
      && (forall x :: x in r[..|r| - 1] <==> x in p && KeyOf(x) != Key(m.id, market))
      && |r| == |p| - CountKey(p, Key(m.id, market)) + 1
  {
    var r := AddSelection(p, m, market, pick);
    assert r[..|r| - 1] == Without(p, Key(m.id, market));
  }

  /** On a key-unique list an add grows the list by one exactly when the key
      was absent, and otherwise keeps its length (App.tsx:55-61). */
  lemma AddSelectionLength(p: seq<UserSelection>, m: Match, market: MarketType, pick: string)
    requires KeysUnique(p)
    ensures var r := AddSelection(p, m, market, pick);
      && |p| <= |r| <= |p| + 1
      && (|r| == |p| + 1 <==> forall x :: x in p ==> KeyOf(x) != Key(m.id, market))
  {
    UniqueCountAtMostOne(p, Key(m.id, market));
  }

  /** The last pick on a match and market wins: a second add on the same key
      replaces the first one. */
  lemma AddSelectionOverwrites(p: seq<UserSelection>, m: Match, m': Match, market: MarketType,
                               pick: string, pick': string)
    requires m'.id == m.id
    ensures AddSelection(AddSelection(p, m, market, pick), m', market, pick')
         == AddSelection(p, m', market, pick')
  {
    var k := Key(m.id, market);
    var w := Without(p, k);
    var s := NewSelection(m, market, pick);
    WithoutAppend(w, [s], k);
    WithoutAbsent(w, k);
    assert Without([s], k) == [];
  }

  /** Adding is idempotent, not a toggle: adding the same pick twice is
      adding it once. */
  lemma AddSelectionIdempotent(p: seq<UserSelection>, m: Match, market: MarketType, pick: string)
    ensures AddSelection(AddSelection(p, m, market, pick), m, market, pick)
         == AddSelection(p, m, market, pick)
  {
    AddSelectionOverwrites(p, m, m, market, pick, pick);
  }

  // ---------------------------------------------------------------------
  // Properties of removing by position

  /** An index inside the list removes exactly that entry and keeps the rest
      in order; any other index leaves the list as it is (App.tsx:67). */
  lemma {:induction false} RemoveAtSpec(p: seq<UserSelection>, index: int)
    ensures 0 <= index < |p| ==> RemoveAt(p, index) == p[..index] + p[index + 1..]
    ensures !(0 <= index < |p|) ==> RemoveAt(p, index) == p
  {
    if |p| > 0 {
      RemoveAtSpec(p[1..], index - 1);
      if index == 0 {
        assert p[..0] + p[1..] == p[1..];
      } else if 0 < index < |p| {
        assert p[1..][..index - 1] + p[1..][index..] == p[1..index] + p[index + 1..];
        assert p[..index] == [p[0]] + p[1..index];
      } else {
        assert p == [p[0]] + p[1..];
      }
    }
  }

  /** Removing keeps keys unique. */
  lemma RemoveAtKeepsUnique(p: seq<UserSelection>, index: int)
    ensures KeysUnique(p) ==> KeysUnique(RemoveAt(p, index))
  {
    RemoveAtSpec(p, index);
    if KeysUnique(p) && 0 <= index < |p| {
      var r := RemoveAt(p, index);
      forall i, j | 0 <= i < j < |r|
        ensures KeyOf(r[i]) != KeyOf(r[j])
      {
        var i' := if i < index then i else i + 1;
        var j' := if j < index then j else j + 1;
        assert r[i] == p[i'] && r[j] == p[j'];
      }
    }
  }
}

=== FILE: response_text.dfy ===
/** Cleaning of the model's raw response text before it is parsed as JSON
    (services/geminiService.ts:136 and :199):
    `text.replace(/```json/g, '').replace(/```/g, '').trim()`. */
module ResponseText {
  import opened Wrappers
  import opened Seqs

  /** A Markdown code fence. */
  const Fence: string := "```"
  /** A Markdown code fence opening a JSON block. */
  const JsonFence: string := "```json"

  /** `pat` occurs in `t` starting at index `i`. */
  predicate OccursAt(t: string, pat: string, i: int) {
    0 <= i && i + |pat| <= |t| && t[i..i + |pat|] == pat
  }

  /** `pat` occurs somewhere in `t`. */
  predicate Occurs(t: string, pat: string) {
    exists i | 0 <= i <= |t| :: OccursAt(t, pat, i)
  }

  /** `s.replace(/pat/g, '')` for a literal pattern: occurrences are found
      leftmost first, do not overlap, and scanning resumes after each one. */
  function RemoveAll(s: string, pat: string): (r: string)
    requires |pat| > 0
    ensures |r| <= |s|
    ensures |s| < |pat| ==> r == s
    // what survives is kept in order, and a character that is not part of
    // the pattern is never removed
    ensures IsSubsequence(r, s)
    ensures forall c {:trigger multiset(r)[c]} :: c !in pat ==> multiset(r)[c] == multiset(s)[c]
    decreases |s|
  {
    if |s| < |pat| then
      SliceIsSubsequence(s, 0, |s|);
      assert s[0..|s|] == s;
      s
    else if s[..|pat|] == pat then
      var rest := RemoveAll(s[|pat|..], pat);
      SubsequenceSkip(rest, s[..|pat|], s[|pat|..]);
      assert s[..|pat|] + s[|pat|..] == s;
      rest
    else
      var rest := RemoveAll(s[1..], pat);
      assert ([s[0]] + rest)[1..] == rest;
      assert [s[0]] + s[1..] == s;
      [s[0]] + rest
  }

  /** A string in which the pattern does not occur is left as it is. */
  lemma {:induction false} RemoveAllAbsent(s: string, pat: string)
    requires |pat| > 0
    requires !Occurs(s, pat)
    ensures RemoveAll(s, pat) == s
    decreases |s|
  {
    if |s| < |pat| {
    } else {
      assert !OccursAt(s, pat, 0);
      forall i | 0 <= i <= |s| - 1
        ensures !OccursAt(s[1..], pat, i)
      {
        if i + |pat| <= |s| - 1 {
          assert s[1..][i..i + |pat|] == s[i + 1..i + 1 + |pat|];
          assert !OccursAt(s, pat, i + 1);
        }
      }
      RemoveAllAbsent(s[1..], pat);
      assert s == [s[0]] + s[1..];
    }
  }

  /** The number of backticks `t` starts with. */
  function LeadingTicks(t: string): nat
    decreases |t|
  {
    if |t| > 0 && t[0] == '`' then 1 + LeadingTicks(t[1..]) else 0
  }

  lemma FenceAtStartIsThreeTicks(t: string)
    requires OccursAt(t, Fence, 0)
    ensures LeadingTicks(t) >= 3
  {
    assert t[..3] == Fence;
    assert t[0] == '`' && t[1] == '`' && t[2] == '`';
    var t1 := t[1..];
    var t2 := t1[1..];
    assert t1[0] == '`' && t2[0] == '`';
    assert LeadingTicks(t2) >= 1;
    assert LeadingTicks(t1) >= 2;
  }

  /** Removing fences leaves a run of `n` leading backticks with `n % 3` of them. */
  lemma {:induction false} RemoveFenceLeadingTicks(s: string)
    ensures LeadingTicks(RemoveAll(s, Fence)) == LeadingTicks(s) % 3
    decreases |s|
  {
    var r := RemoveAll(s, Fence);
    if |s| < 3 {
      if |s| > 0 && s[0] == '`' {
        if |s| > 1 && s[1] == '`' {
          assert s[1..][0] == '`';
          assert LeadingTicks(s[1..][1..]) == 0;
        }
      }
    } else if s[..3] == Fence {
      RemoveFenceLeadingTicks(s[3..]);
      assert s[0] == '`' && s[1] == '`' && s[2] == '`';
      assert s[1..][1..][1..] == s[3..];
    } else {
      RemoveFenceLeadingTicks(s[1..]);
      assert r == [s[0]] + RemoveAll(s[1..], Fence);
      if s[0] == '`' {
        // s starts with one or two backticks only
        if s[1] == '`' {
          assert s[2] != '`';
          assert s[1..][1..][0] != '`';
        } else {
          assert s[1..][0] != '`';
        }
      }
    }
  }

  /** After all fences are removed, no fence is left: removal never joins
      backticks into a new fence. */
  lemma {:induction false} RemoveFenceLeavesNoFence(s: string)
    ensures !Occurs(RemoveAll(s, Fence), Fence)
    decreases |s|
  {
    var r := RemoveAll(s, Fence);
    if |s| < 3 {
    } else if s[..3] == Fence {
      RemoveFenceLeavesNoFence(s[3..]);
    } else {
      var rest := RemoveAll(s[1..], Fence);
      assert r == [s[0]] + rest;
      RemoveFenceLeavesNoFence(s[1..]);
      RemoveFenceLeadingTicks(s);
      forall i | 0 <= i <= |r|
        ensures !OccursAt(r, Fence, i)
      {
        if i == 0 {
          if OccursAt(r, Fence, 0) {
            FenceAtStartIsThreeTicks(r);
          }
        } else if i + 3 <= |r| {
          assert rest[i - 1..i - 1 + 3] == r[i..i + 3];
          assert !OccursAt(rest, Fence, i - 1);
        }
      }
    }
  }

  /** White space and line terminators as ECMAScript's `String.prototype.trim`
      defines them. */
  predicate IsWhitespace(c: char) {
    || c == '\t' || c == '\U{000B}' || c == '\U{000C}' || c == ' '
    || c == '\U{00A0}' || c == '\U{FEFF}' || c == '\U{1680}'
    || ('\U{2000}' <= c <= '\U{200A}')
    || c == '\U{202F}' || c == '\U{205F}' || c == '\U{3000}'
    || c == '\n' || c == '\r' || c == '\U{2028}' || c == '\U{2029}'
  }

  /** `t` neither starts nor ends with white space. */
  predicate IsTrimmed(t: string) {
    |t| > 0 ==> !IsWhitespace(t[0]) && !IsWhitespace(t[|t| - 1])
  }

  /** Drops the leading white space of `s`. */
  function TrimStart(s: string): (r: string)
    ensures |r| <= |s| && r == s[|s| - |r|..]
    ensures forall k :: 0 <= k < |s| - |r| ==> IsWhitespace(s[k])
    ensures |r| > 0 ==> !IsWhitespace(r[0])
    decreases |s|
  {
    if |s| > 0 && IsWhitespace(s[0]) then TrimStart(s[1..]) else s
  }

  /** Drops the trailing white space of `s`. */
  function TrimEnd(s: string): (r: string)
    ensures |r| <= |s| && r == s[..|r|]
    ensures forall k :: |r| <= k < |s| ==> IsWhitespace(s[k])
    ensures |r| > 0 ==> !IsWhitespace(r[|r| - 1])
    decreases |s|
  {
    if |s| > 0 && IsWhitespace(s[|s| - 1]) then TrimEnd(s[..|s| - 1]) else s
  }

  /** `s.trim()`. */
  function Trim(s: string): (r: string)
    ensures IsTrimmed(r)
  {
    TrimEnd(TrimStart(s))
  }

  /** The trimmed string is the slice of `s` between a white-space prefix and
      a white-space suffix. */
  lemma TrimIsSlice(s: string) returns (i: nat)
    ensures i + |Trim(s)| <= |s| && Trim(s) == s[i..i + |Trim(s)|]
    ensures forall k :: 0 <= k < i ==> IsWhitespace(s[k])
    ensures forall k :: i + |Trim(s)| <= k < |s| ==> IsWhitespace(s[k])
  {
    var a := TrimStart(s);
    i := |s| - |a|;
    assert a == s[i..];
    var r := TrimEnd(a);
    assert Trim(s) == r && r == a[..|r|];
    assert r == s[i..i + |r|];
    WhitespaceTailShift(s, i, |r|);
  }

  /** White space from position `n` of `s[i..]` on is white space of `s`
      from position `i + n` on. */
  lemma WhitespaceTailShift(s: string, i: nat, n: nat)
    requires i <= |s| && n <= |s| - i
    requires forall k :: n <= k < |s[i..]| ==> IsWhitespace(s[i..][k])
    ensures forall k :: i + n <= k < |s| ==> IsWhitespace(s[k])
  {
    forall k | i + n <= k < |s|
      ensures IsWhitespace(s[k])
    {
      assert s[k] == s[i..][k - i];
    }
  }

  /** A string that is already trimmed is returned unchanged by `trim()`. */
  lemma TrimKeepsTrimmed(t: string)
    requires IsTrimmed(t)
    ensures Trim(t) == t
  {
  }

  /** A fence-free string stays fence-free in every slice. */
  lemma SliceKeepsNoFence(t: string, i: nat, j: nat)
    requires i <= j <= |t|
    requires !Occurs(t, Fence)
    ensures !Occurs(t[i..j], Fence)
  {
    var u := t[i..j];
    forall k | 0 <= k <= |u|
      ensures !OccursAt(u, Fence, k)
    {
      if k + 3 <= |u| {
        assert u[k] == t[i + k] && u[k + 1] == t[i + k + 1] && u[k + 2] == t[i + k + 2];
        assert u[k..k + 3] == t[i + k..i + k + 3];
        assert !OccursAt(t, Fence, i + k);
      }
    }
  }

  /** Trimming cannot create a fence. */
  lemma TrimKeepsNoFence(t: string)
    requires !Occurs(t, Fence)
    ensures !Occurs(Trim(t), Fence)
  {
    var i := TrimIsSlice(t);
    SliceKeepsNoFence(t, i, i + |Trim(t)|);
  }

  /** A string with no fence has no JSON fence either. */
  lemma NoFenceNoJsonFence(t: string)
    requires !Occurs(t, Fence)
    ensures !Occurs(t, JsonFence)
  {
    forall i | 0 <= i <= |t|
      ensures !OccursAt(t, JsonFence, i)
    {
      if i + 7 <= |t| {
        assert t[i..i + 3] == t[i..i + 7][..3];
        assert !OccursAt(t, Fence, i);
      }
    }
  }

  /** The cleaning of services/geminiService.ts:136 and :199: the result holds no
      code fence and has no white space at either end. */
  function Clean(s: string): (r: string)
    ensures !Occurs(r, Fence)
    ensures IsTrimmed(r)
    // nothing is invented: the result is drawn from `s` in order, and
    // every character that is neither white space nor part of "```json"
    // is kept as often as it occurs in `s` (`CleanFenced` shows that a
    // fenced body survives whole)
    ensures IsSubsequence(r, s)
    ensures forall c {:trigger multiset(r)[c]} :: c !in JsonFence && !IsWhitespace(c) ==> multiset(r)[c] == multiset(s)[c]
  {
    var unjson := RemoveAll(s, JsonFence);
    var unfenced := RemoveAll(unjson, Fence);
    RemoveFenceLeavesNoFence(unjson);
    TrimKeepsNoFence(unfenced);
    TrimKeepsContent(unfenced);
    SubsequenceTransitive(unfenced, unjson, s);
    SubsequenceTransitive(Trim(unfenced), unfenced, s);
    Trim(unfenced)
  }

  /** `trim()` keeps a slice of its input, so a subsequence holding every
      character that is not white space. */
  lemma TrimKeepsContent(t: string)
    ensures IsSubsequence(Trim(t), t)
    ensures forall c :: !IsWhitespace(c) ==> multiset(Trim(t))[c] == multiset(t)[c]
  {
    var i := TrimIsSlice(t);
    var r := Trim(t);
    var j := i + |r|;
    assert r == t[i..j];
    SliceIsSubsequence(t, i, j);
    SliceKeepsContent(t, i, j);
    assert multiset(r) == multiset(t[i..j]);
  }

  /** Cutting white space off both ends of `t` keeps every other character. */
  lemma SliceKeepsContent(t: string, i: nat, j: nat)
    requires i <= j <= |t|
    requires forall k :: 0 <= k < i ==> IsWhitespace(t[k])
    requires forall k :: j <= k < |t| ==> IsWhitespace(t[k])
    ensures forall c :: !IsWhitespace(c) ==> multiset(t[i..j])[c] == multiset(t)[c]
  {
    assert t == t[..i] + t[i..j] + t[j..];
    forall c | !IsWhitespace(c)
      ensures multiset(t[i..j])[c] == multiset(t)[c]
    {
      assert c !in t[..i] && c !in t[j..];
    }
  }

  /** Text that is already trimmed and fence-free is returned unchanged. */
  lemma CleanKeepsCleanText(t: string)
    requires !Occurs(t, Fence)
    requires IsTrimmed(t)
    ensures Clean(t) == t
  {
    NoFenceNoJsonFence(t);
    RemoveAllAbsent(t, JsonFence);
    RemoveAllAbsent(t, Fence);
    TrimKeepsTrimmed(t);
  }

  /** Cleaning twice is cleaning once. */
  lemma CleanIdempotent(s: string)
    ensures Clean(Clean(s)) == Clean(s)
  {
    CleanKeepsCleanText(Clean(s));
  }

  /** A removal pattern that starts with a backtick cannot match anywhere in
      a backtick-free prefix, so that prefix passes through untouched. */
  lemma {:induction false} RemoveAllKeepsTicklessPrefix(b: string, t: string, pat: string)
    requires |pat| > 0 && pat[0] == '`'
    requires '`' !in b
    ensures RemoveAll(b + t, pat) == b + RemoveAll(t, pat)
    decreases |b|
  {
    if |b| > 0 {
      var s := b + t;
      assert s[0] == b[0];
      if |s| >= |pat| {
        assert s[..|pat|][0] != pat[0];
        assert s[1..] == b[1..] + t;
        assert b[1..] == b[1..|b|];
        RemoveAllKeepsTicklessPrefix(b[1..], t, pat);
        assert RemoveAll(s, pat) == [s[0]] + RemoveAll(s[1..], pat);
        assert [b[0]] + b[1..] == b;
      }
    } else {
      assert b + t == t;
    }
  }

  /** An answer with no backtick at all is only trimmed. */
  lemma CleanTickless(b: string)
    requires '`' !in b
    ensures Clean(b) == Trim(b)
  {
    RemoveAllKeepsTicklessPrefix(b, "", JsonFence);
    RemoveAllKeepsTicklessPrefix(b, "", Fence);
    assert b + "" == b;
  }

  /** A backtick-free JSON body wrapped in a "```json" ... "```" block comes
      back whole, only trimmed: no character of the body is lost. */
  lemma CleanFenced(b: string)
    requires '`' !in b
    ensures Clean(JsonFence + b + Fence) == Trim(b)
  {
    var s := JsonFence + b + Fence;
    assert s[..|JsonFence|] == JsonFence && s[|JsonFence|..] == b + Fence;
    RemoveAllKeepsTicklessPrefix(b, Fence, JsonFence);
    RemoveAllKeepsTicklessPrefix(b, Fence, Fence);
    assert Fence[..|Fence|] == Fence && Fence[|Fence|..] == "";
    assert b + "" == b;
  }
}

=== FILE: scenarios.dfy ===
/** Concrete runs of the model on the bundled catalog. */
module Scenarios {
  import opened Wrappers
  import opened Types
  import opened Constants
  import opened ResponseText
  import opened Portfolio
  import opened GeminiService
  import opened App

  /** Filtering the static catalog by either sport yields its single match of
      that sport (constants.ts:15, 50; App.tsx:50-52). */
  lemma MockFilterBySport(today: CalendarDay)
    ensures FilterBySport(MockMatches(today), Football) == [MockMatches(today)[0]]
    ensures FilterBySport(MockMatches(today), Basketball) == [MockMatches(today)[1]]
  {
    var ms := MockMatches(today);
    assert ms[1..] == [ms[1]];
    assert ms[1..][1..] == [];
  }

  /** The basketball fixture has no correct-score ladder, so every lookup on
      it finds nothing; the football fixture prices "1:0" at 7.5 and has no
      "3:0" entry although the grid offers that score (App.tsx:86-93). */
  lemma MockFindOdds(today: CalendarDay, caption: string)
    ensures FindOdds(MockMatches(today)[1], caption) == None
    ensures FindOdds(MockMatches(today)[0], "1:0") == Some(7.5)
    ensures FindOdds(MockMatches(today)[0], "3:0") == None
  {
    var f := MockMatches(today)[0];
    assert Scores(f)[0].labelText == "1:0";
    assert forall j :: 0 <= j < |Scores(f)| ==> Scores(f)[j].labelText != "3:0";
  }

  /** A session on two matches: a home-win pick and a correct score on the
      first, a total on the second, then the home win is changed to a draw.
      The draw replaces the home win and moves to the end; the correct score
      on the same match stays. Removing position 1 drops the total; an index
      past the end changes nothing. */
  lemma PortfolioSession(f: Match, b: Match)
    requires f.id != b.id
    ensures var p1 := AddSelection([], f, WDL, "主胜");
            var p2 := AddSelection(p1, f, CS, "1:0");
            var p3 := AddSelection(p2, b, TOTALS, "大分");
            var p4 := AddSelection(p3, f, WDL, "平局");
      && p4 == [NewSelection(f, CS, "1:0"), NewSelection(b, TOTALS, "大分"), NewSelection(f, WDL, "平局")]
      && KeysUnique(p4)
      && RemoveAt(p4, 1) == [NewSelection(f, CS, "1:0"), NewSelection(f, WDL, "平局")]
      && RemoveAt(p4, 3) == p4
  {
    SessionAdds(f, b);
    SessionEnd(f, b);
  }

  /** The three fresh picks append in order; the re-pick on WDL drops the
      first one and appends the draw. */
  lemma SessionAdds(f: Match, b: Match)
    requires f.id != b.id
    ensures var p1 := AddSelection([], f, WDL, "主胜");
            var p2 := AddSelection(p1, f, CS, "1:0");
            var p3 := AddSelection(p2, b, TOTALS, "大分");
      && p3 == [NewSelection(f, WDL, "主胜"), NewSelection(f, CS, "1:0"), NewSelection(b, TOTALS, "大分")]
      && AddSelection(p3, f, WDL, "平局")
         == [NewSelection(f, CS, "1:0"), NewSelection(b, TOTALS, "大分"), NewSelection(f, WDL, "平局")]
  {
    var s1 := NewSelection(f, WDL, "主胜");
    var s2 := NewSelection(f, CS, "1:0");
    var s3 := NewSelection(b, TOTALS, "大分");
    AddSelectionFreshKey([], f, WDL, "主胜");
    assert AddSelection([], f, WDL, "主胜") == [s1];
    AddSelectionFreshKey([s1], f, CS, "1:0");
    assert AddSelection([s1], f, CS, "1:0") == [s1, s2];
    AddSelectionFreshKey([s1, s2], b, TOTALS, "大分");
    assert AddSelection([s1, s2], b, TOTALS, "大分") == [s1, s2, s3];
    SessionRepick(f, b);
  }

  lemma SessionRepick(f: Match, b: Match)
    requires f.id != b.id
    ensures var s1 := NewSelection(f, WDL, "主胜");
            var s2 := NewSelection(f, CS, "1:0");
            var s3 := NewSelection(b, TOTALS, "大分");
            AddSelection([s1, s2, s3], f, WDL, "平局") == [s2, s3, NewSelection(f, WDL, "平局")]
  {
    var s1 := NewSelection(f, WDL, "主胜");
    var s2 := NewSelection(f, CS, "1:0");
    var s3 := NewSelection(b, TOTALS, "大分");
    var k := Key(f.id, WDL);
    WithoutAppend([s1], [s2, s3], k);
    assert [s1] + [s2, s3] == [s1, s2, s3];
    WithoutAbsent([s2, s3], k);
    assert Without([s1], k) == [];
  }

  /** The final portfolio has unique keys; removing position 1 drops the
      total, and an index past the end changes nothing. */
  lemma SessionEnd(f: Match, b: Match)
    requires f.id != b.id
    ensures var p4 := [NewSelection(f, CS, "1:0"), NewSelection(b, TOTALS, "大分"), NewSelection(f, WDL, "平局")];
      && KeysUnique(p4)
      && RemoveAt(p4, 1) == [NewSelection(f, CS, "1:0"), NewSelection(f, WDL, "平局")]
      && RemoveAt(p4, 3) == p4
  {
    var s2 := NewSelection(f, CS, "1:0");
    var s3 := NewSelection(b, TOTALS, "大分");
    var s4 := NewSelection(f, WDL, "平局");
    var p4 := [s2, s3, s4];
    UniqueCons(s2, [s3, s4]);
    UniqueCons(s3, [s4]);
    assert [s3] + [s4] == [s3, s4];
    assert [s2] + [s3, s4] == p4;
    RemoveAtSpec(p4, 1);
    RemoveAtSpec(p4, 3);
    assert p4[..1] + p4[2..] == [s2, s4];
  }

  /** The audit context for two catalog matches and one selection whose
      match is not in the catalog: the stale selection is dropped and each
      kept entry names its match with " vs " (services/geminiService.ts:165-174). */
  lemma AuditContextDropsStale(f: Match, b: Match, stale: UserSelection)
    requires f.id != b.id && stale.matchId != f.id && stale.matchId != b.id
    ensures var p := [NewSelection(f, CS, "1:0"), stale, NewSelection(b, TOTALS, "大分")];
            var ctx := MatchContextJoin(p, [f, b]);
      && |ctx| == 2
      && ctx[0] == ContextEntry(f.id, f.homeTeam + " vs " + f.awayTeam, f.context, "1:0", CS)
      && ctx[1] == ContextEntry(b.id, b.homeTeam + " vs " + b.awayTeam, b.context, "大分", TOTALS)
  {
    var ms := [f, b];
    var p := [NewSelection(f, CS, "1:0"), stale, NewSelection(b, TOTALS, "大分")];
    TwoMatchLookups(f, b, stale.matchId);
    var q := p[1..];
    assert q == [stale, NewSelection(b, TOTALS, "大分")];
    assert q[1..] == [NewSelection(b, TOTALS, "大分")];
    assert MatchContextJoin(q[1..], ms) == [EntryFor(b, NewSelection(b, TOTALS, "大分"))];
    assert MatchContextJoin(q, ms) == MatchContextJoin(q[1..], ms);
    assert MatchContextJoin(p, ms) == [EntryFor(f, p[0])] + MatchContextJoin(q, ms);
  }

  /** Looking up ids in a two-match catalog. */
  lemma TwoMatchLookups(f: Match, b: Match, id: string)
    requires f.id != b.id
    ensures FindMatch([f, b], f.id) == Some(f) && FindMatch([f, b], b.id) == Some(b)
    ensures id != f.id && id != b.id ==> FindMatch([f, b], id) == None
  {
    assert FirstIndexOf([f, b], f.id) == Some(0);
    assert [f, b][1..] == [b];
    assert FirstIndexOf([b], b.id) == Some(0);
    assert FirstIndexOf([f, b], b.id) == Some(1);
  }

  /** A fenced answer is reduced to its JSON body. */
  lemma CleanFencedAnswer()
    ensures Clean("```json\n[]\n```") == "[]"
  {
    assert "```json\n[]\n```" == JsonFence + "\n[]\n" + Fence;
    CleanFenced("\n[]\n");
    TrimSteps();
  }

  lemma TrimSteps()
    ensures Trim("\n[]\n") == "[]"
  {
    var b := "\n[]\n";
    assert IsWhitespace(b[0]);
    assert b[1..] == "[]\n";
    assert !IsWhitespace('[');
    assert TrimStart(b) == "[]\n";
    var t := "[]\n";
    assert IsWhitespace(t[2]);
    assert t[..2] == "[]";
    assert !IsWhitespace(']');
  }

  /** A live catalog match used to show the effect of the status-callback argument. */
  function LiveMatch(today: CalendarDay): Match {
    var base := MockMatches(today)[0];
    base.(id := "f_live")
  }

  /** As written, even a timely, well-formed live answer leaves the static
      catalog installed, where passing the callback installs the live one. */
  lemma RefreshAsWrittenIgnoresLiveData(today: CalendarDay)
    ensures var parse := (s: string) => Parsed(JsonArray([LiveMatch(today)]));
            var st := InitialState();
      && RefreshAsWritten(st, None, Responded("[...]"), false, Threw(Error("unused")), parse, today).matches
           == MockMatches(today)
      && Refresh(st, None, Responded("[...]"), false, Threw(Error("unused")), parse, today).matches
           == [LiveMatch(today)]
      && MockMatches(today) != [LiveMatch(today)]
  {
    var parse := (s: string) => Parsed(JsonArray([LiveMatch(today)]));
    assert parse(Clean("[...]")) == Parsed(JsonArray([LiveMatch(today)]));
    assert YieldsCatalog(Responded("[...]"), parse, [LiveMatch(today)]);
    assert |MockMatches(today)| == 2;
  }
}

=== FILE: seqs.dfy ===
/** Facts about sequences the model relies on: the subsequence relation
    that filters and text cleaning produce, and how it composes. */
module Seqs {

  /** `s` occurs in `t` in the same relative order, possibly with gaps. */
  predicate IsSubsequence<T(==)>(s: seq<T>, t: seq<T>)
    decreases |t|
  {
    if |s| == 0 then true
    else if |t| == 0 then false
    else if s[0] == t[0] then IsSubsequence(s[1..], t[1..])
    else IsSubsequence(s, t[1..])
  }

  /** Every element of a subsequence is an element of the sequence it was taken from. */
  lemma {:induction false} SubsequenceMembers<T>(s: seq<T>, t: seq<T>)
    requires IsSubsequence(s, t)
    ensures forall x :: x in s ==> x in t
    ensures |s| <= |t|
    decreases |t|
  {
    if |s| == 0 {
    } else if s[0] == t[0] {
      SubsequenceMembers(s[1..], t[1..]);
      assert s == [s[0]] + s[1..];
      assert t == [t[0]] + t[1..];
    } else {
      SubsequenceMembers(s, t[1..]);
      assert t == [t[0]] + t[1..];
    }
  }
  /** Putting one more element in front of `t` keeps every subsequence of `t`. */
  lemma {:induction false} SubsequencePrepend<T>(s: seq<T>, a: T, t: seq<T>)
    requires IsSubsequence(s, t)
    ensures IsSubsequence(s, [a] + t)
    decreases |t|
  {
    var at := [a] + t;
    assert at[1..] == t;
    if |s| > 0 && s[0] == a {
      // the greedy match now takes `a`; the rest of `s` must still fit in `t`
      if s[0] == t[0] {
        SubsequencePrepend(s[1..], t[0], t[1..]);
        assert [t[0]] + t[1..] == t;
      } else {
        SubsequencePrepend(s, a, t[1..]);
        assert ([a] + t[1..])[1..] == t[1..];
        SubsequencePrepend(s[1..], t[0], t[1..]);
        assert [t[0]] + t[1..] == t;
      }
    }
  }

  /** A subsequence of `t` is a subsequence of `p + t`. */
  lemma {:induction false} SubsequenceSkip<T>(s: seq<T>, p: seq<T>, t: seq<T>)
    requires IsSubsequence(s, t)
    ensures IsSubsequence(s, p + t)
    decreases |p|
  {
    if |p| > 0 {
      SubsequenceSkip(s, p[1..], t);
      SubsequencePrepend(s, p[0], p[1..] + t);
      assert [p[0]] + (p[1..] + t) == p + t;
    } else {
      assert p + t == t;
    }
  }

  /** Every slice of `t` is a subsequence of `t`. */
  lemma {:induction false} SliceIsSubsequence<T>(t: seq<T>, i: nat, j: nat)
    requires i <= j <= |t|
    ensures IsSubsequence(t[i..j], t)
    decreases i, j
  {
    if i > 0 {
      SliceIsSubsequence(t[1..], i - 1, j - 1);
      assert t[1..][i - 1..j - 1] == t[i..j];
      SubsequencePrepend(t[i..j], t[0], t[1..]);
      assert [t[0]] + t[1..] == t;
    } else if j > 0 {
      SliceIsSubsequence(t[1..], 0, j - 1);
      assert t[..j][1..] == t[1..][..j - 1];
    }
  }

  /** A subsequence of a subsequence of `u` is a subsequence of `u`. */
  lemma {:induction false} SubsequenceTransitive<T>(s: seq<T>, t: seq<T>, u: seq<T>)
    requires IsSubsequence(s, t) && IsSubsequence(t, u)
    ensures IsSubsequence(s, u)
    decreases |u|
  {
    if |s| > 0 {
      if t[0] == u[0] {
        if s[0] == t[0] {
          SubsequenceTransitive(s[1..], t[1..], u[1..]);
        } else {
          SubsequenceTransitive(s, t[1..], u[1..]);
          SubsequencePrepend(s, u[0], u[1..]);
          assert [u[0]] + u[1..] == u;
        }
      } else {
        SubsequenceTransitive(s, t, u[1..]);
        SubsequencePrepend(s, u[0], u[1..]);
        assert [u[0]] + u[1..] == u;
      }
    }
  }
}

=== FILE: types.dfy ===
/** The record and enumeration types of the app (types.ts), plus the market
    names App.tsx passes to `addToPortfolio`. TypeScript numbers are modelled
    as exact `real`s; optional properties (`x?: T`) as `Option<T>`. */
module Types {
  import opened Wrappers

  /** `SportType` (types.ts:2). */
  datatype SportType = Football | Basketball

  /** Market of a selection. types.ts:45 declares WDL | CS | TOTALS; App.tsx
      also adds selections under WDHL (handicap win/draw/loss) and TG (total goals). */
  datatype MarketType = WDL | WDHL | CS | TG | TOTALS

  /** `motivation_level` of a match context (types.ts:36). */
  datatype Motivation = High | Medium | Low

  /** `PortfolioSummary.status` (types.ts:66). */
  datatype AuditStatus = Pass | Warning | Critical

  /** `AuditDetail.risk_level` (types.ts:58). */
  datatype RiskLevel = LowRisk | MediumRisk | HighRisk

  /** `Optimization.type` (types.ts:51). */
  datatype OptimizationType = SafetyNet | Pivot

  /** One quoted outcome of a ladder market such as correct score (types.ts:4-8). */
  datatype MarketOdds = MarketOdds(labelText: string, value: string, odds: real)

  datatype Injury = Injury(player: string, status: string, importance: string)
  datatype RecentForm = RecentForm(home: string, away: string)
  /** Home / draw / away prices. */
  datatype Prices = Prices(h: real, d: real, a: real)
  datatype InternationalOdds = InternationalOdds(wdl: Prices, trend: string, kellyIndex: Option<Prices>)
  datatype Markets = Markets(correctScore: Option<seq<MarketOdds>>, handicap: Option<string>)
  datatype Stats = Stats(homeOffRating: Option<real>, awayDefRating: Option<real>,
                         goalAvgHome: Option<real>, goalAvgAway: Option<real>)
  datatype LeagueRank = LeagueRank(home: real, away: real)

  /** The `match_context` bag of a match (types.ts:17-38). */
  datatype MatchContext = MatchContext(
    injuries: seq<Injury>,
    recentForm: RecentForm,
    internationalOdds: InternationalOdds,
    markets: Markets,
    stats: Stats,
    leagueRank: LeagueRank,
    motivation: Motivation,
    newsSentiment: Option<string>)

  /** A fixture of the catalog (types.ts:10-39). */
  datatype Match = Match(
    id: string,
    sport: SportType,
    homeTeam: string,
    awayTeam: string,
    league: string,
    startTime: string,
    context: MatchContext)

  /** One pick of the portfolio (types.ts:41-47); it carries no odds. */
  datatype UserSelection = UserSelection(
    matchId: string,
    matchName: string,
    sport: SportType,
    marketType: MarketType,
    pick: string)

  datatype Optimization = Optimization(available: bool, kind: OptimizationType,
                                       suggestedPickName: string, suggestedReason: string)

  datatype AuditDetail = AuditDetail(selectionId: string, riskLevel: RiskLevel, uiColor: string,
                                     riskTag: string, analysis: string, optimization: Optimization)

  datatype PortfolioSummary = PortfolioSummary(status: AuditStatus, totalRiskScore: real, summaryText: string)

  /** What the audit oracle answers (types.ts:71-74). */
  datatype AuditResponse = AuditResponse(summary: PortfolioSummary, details: seq<AuditDetail>)

  // Wire names of the closed string unions, and their inverses.

  function SportName(s: SportType): string {
    match s
    case Football => "FOOTBALL"
    case Basketball => "BASKETBALL"
  }

  /** Reads a `SportType`; exactly the two names of types.ts:2 are accepted. */
  function ParseSport(name: string): (r: Option<SportType>)
    ensures r.Some? <==> name == "FOOTBALL" || name == "BASKETBALL"
    ensures r.Some? ==> SportName(r.value) == name
  {
    if name == "FOOTBALL" then Some(Football)
    else if name == "BASKETBALL" then Some(Basketball)
    else None
  }

  function MarketName(k: MarketType): string {
    match k
    case WDL => "WDL"
    case WDHL => "WDHL"
    case CS => "CS"
    case TG => "TG"
    case TOTALS => "TOTALS"
  }

  /** Reads a market name; exactly the five names App.tsx uses are accepted. */
  function ParseMarket(name: string): (r: Option<MarketType>)
    ensures r.Some? <==> name in {"WDL", "WDHL", "CS", "TG", "TOTALS"}
    ensures r.Some? ==> MarketName(r.value) == name
  {
    if name == "WDL" then Some(WDL)
    else if name == "WDHL" then Some(WDHL)
    else if name == "CS" then Some(CS)
    else if name == "TG" then Some(TG)
    else if name == "TOTALS" then Some(TOTALS)
    else None
  }

  function StatusName(s: AuditStatus): string {
    match s
    case Pass => "PASS"
    case Warning => "WARNING"
    case Critical => "CRITICAL"
  }

  /** Reads a summary status; exactly PASS, WARNING and CRITICAL are accepted. */
  function ParseStatus(name: string): (r: Option<AuditStatus>)
    ensures r.Some? <==> name in {"PASS", "WARNING", "CRITICAL"}
    ensures r.Some? ==> StatusName(r.value) == name
  {
    if name == "PASS" then Some(Pass)
    else if name == "WARNING" then Some(Warning)
    else if name == "CRITICAL" then Some(Critical)
    else None
  }

  function RiskLevelName(l: RiskLevel): string {
    match l
    case LowRisk => "LOW"
    case MediumRisk => "MEDIUM"
    case HighRisk => "HIGH"
  }

  /** Reads a risk level; exactly LOW, MEDIUM and HIGH are accepted. */
  function ParseRiskLevel(name: string): (r: Option<RiskLevel>)
    ensures r.Some? <==> name in {"LOW", "MEDIUM", "HIGH"}
    ensures r.Some? ==> RiskLevelName(r.value) == name
  {
    if name == "LOW" then Some(LowRisk)
    else if name == "MEDIUM" then Some(MediumRisk)
    else if name == "HIGH" then Some(HighRisk)
    else None
  }

  function OptimizationTypeName(t: OptimizationType): string {
    match t
    case SafetyNet => "SAFETY_NET"
    case Pivot => "PIVOT"
  }

  /** Reads an optimization type; exactly SAFETY_NET and PIVOT are accepted. */
  function ParseOptimizationType(name: string): (r: Option<OptimizationType>)
    ensures r.Some? <==> name == "SAFETY_NET" || name == "PIVOT"
    ensures r.Some? ==> OptimizationTypeName(r.value) == name
  {
    if name == "SAFETY_NET" then Some(SafetyNet)
    else if name == "PIVOT" then Some(Pivot)
    else None
  }

  /** Every enumeration value is read back from its own wire name. */
  lemma WireNamesRoundTrip()
    ensures forall s :: ParseSport(SportName(s)) == Some(s)
    ensures forall k :: ParseMarket(MarketName(k)) == Some(k)
    ensures forall s :: ParseStatus(StatusName(s)) == Some(s)
    ensures forall l :: ParseRiskLevel(RiskLevelName(l)) == Some(l)
    ensures forall t :: ParseOptimizationType(OptimizationTypeName(t)) == Some(t)
  {
  }
}

=== FILE: wrappers.dfy ===
/** Small value types shared by the whole model: optional values, JavaScript
    errors and the two ways a promise can settle. */
module Wrappers {

  /** An optional value, standing for TypeScript's `T | undefined` and `T | null`. */
  datatype Option<+T> = None | Some(value: T) {

    /** The value, or `default` when there is none (TypeScript's `x ?? default`). */
    function GetOr(default: T): (r: T)
      ensures Some? ==> r == value
      ensures None? ==> r == default
    {
      match this
      case Some(v) => v
      case None => default
    }
  }

  /** A thrown JavaScript error; only its `message` is ever inspected. */
  datatype Error = Error(message: string)

  /** How a promise settles: with a value or with a thrown error. */
  datatype Settled<+T> = Fulfilled(value: T) | Rejected(error: Error)
}
